=== FILE: README.md ===
# Two arcade kernels, modelled in Dafny

This project models the game logic of two small single-screen games, without their GUI toolkits:

- **`tetris.py`**: the falling-block game, on a 20 x 10 board of optional colours. The model covers:
  - shape rotation (reverse the rows, then transpose);
  - placement legality;
  - atomic move and rotate;
  - imprinting a locked piece;
  - clearing full rows;
  - locking, with the 0/100/300/500/800 score table;
  - the score-driven level and tick delay;
  - hard drop, key handling, restart and the high-score rule.
- **`fase1.py`**: the platformer, on a 32-pixel tile map with integer rectangles. The model covers:
  - steering from the keys, gravity and the fall cap, with velocities in tenths of a pixel;
  - the player's sign-driven tile clamp (`Player.collide`);
  - coin pickup, the enemy stomp-or-hit rule and the WIN/DEAD result of `Player.update`;
  - `Player.respawn`;
  - the enemy patrol with its ground probe (`Enemy.update`);
  - extracting coins, enemies and the flag from the tile map;
  - the PLAY-state step of the main loop;
  - the level reset.

The model is functional. Boards, pieces, rectangles, players, enemies and game states are immutable datatypes, and every operation is a pure function from the old state to the new one. Rectangles follow pygame's `Rect`:

- `colliderect` is strict overlap, and a rect with zero width or height touches nothing.
- Setting `right` or `bottom` moves the rect and keeps its size.

Files, one module each:

| file | module | contents |
|---|---|---|
| `wrappers.dfy` | `Wrappers` | `Option` |
| `seqs.dfy` | `Seqs` | order-preserving `Filter`, `Count`, `Map` and their algebra |
| `matrix.dfy` | `Matrix` | `rotate` and its dimension, half-turn and four-turn laws |
| `tetromino.dfy` | `Tetromino` | the seven kinds, their shapes and colours, the rotation orbit |
| `board.dfy` | `Board` | the board, full rows, `clear_lines` |
| `pieces.dfy` | `Pieces` | `Piece`: spawn, `_collides`, `move`, `rotate`, `imprint`, hard drop |
| `tetris.dfy` | `Tetris` | `lock_piece`, `_tick`, `key_pressed`, `restart`, `save_record`, and the game invariant |
| `rects.dfy` | `Rects` | pygame-style rectangles |
| `tiles.dfy` | `Tiles` | the tile map, its row-major scan, the clamping sweep |
| `platformer.dfy` | `Platformer` | player and enemy rules |
| `level.dfy` | `Level` | tile-map extraction, the PLAY step, reset |

The falling-block game keeps an invariant, `Tetris.Inv`. It says:

- the board is 20 x 10 and has no full row;
- the current piece has its kind's colour and is one of its kind's four rotations;
- the next piece is freshly spawned;
- while the game runs, the current piece is in bounds and over empty cells.

Every tick, every key and every restart keeps this invariant. Two consequences follow. A lock clears at most four rows, so the score-table lookup is always in range. And the board never leaves 20 x 10.

One property of the platformer as written is worth knowing. A map-placed enemy's ground probe never finds ground (`Level.PlacedEnemyStaysPut`):

- The enemy is 28 pixels tall and placed 2 pixels into its tile. The probe, 2 pixels lower, therefore ends exactly on the top edge of the tile below.
- Touching edges do not count as overlap.
- So every placed enemy turns round on its first step and is back on its spawn spot after its second, even when it stands on a solid floor. It jitters in place and never patrols.

The model keeps the source's behaviour and proves this property of it. It may be an unintended effect, but the source does not say what was meant, so the model states it as a property, not a defect.

The flag's hit region is `Rect(x+8, y, TILE, TILE*3)` of the 9 tile (`Level.FlagRect`). Screen y grows downward, so the region starts at the tile's top edge and reaches three tiles down.

## Model

| member | source | states |
|---|---|---|
| Matrix.Rotate | tetris.py:22 | rotating an m-row matrix gives as many rows as its shortest row (zip truncates), each of length m, with entry (j, i) taken from row m-1-i, column j |
| Matrix.RotateDims | tetris.py:22 | rotating a rows x cols matrix gives a cols x rows matrix |
| Matrix.HalfTurn | tetris.py:22 | two rotations keep the dimensions and reverse both axes |
| Matrix.RotateFour | tetris.py:22 | four rotations of a non-empty rectangular shape give the shape back |
| Tetromino.Canonical | tetris.py:10-18 | the spawn matrices are rectangles of one or two rows and two to four columns; I is the only one-row kind and O the only square |
| Tetromino.ColorsDistinct | tetris.py:19-20 | the seven kinds have seven different colours |
| Tetromino.CanonicalOk | tetris.py:10-18 | each of the seven shapes is a non-empty rectangle of at most 4 x 4 cells with a filled cell, and lies in its own rotation orbit |
| Tetromino.RotateKeepsShapeOk | tetris.py:22 | rotation keeps a shape rectangular, at most 4 x 4 and with a filled cell |
| Tetromino.OrbitMemberOk | tetris.py:22 | every repeated rotation of a canonical shape is well formed |
| Tetromino.InOrbitOk | tetris.py:31-33 | any of a kind's rotation states is well formed |
| Tetromino.RotateStaysInOrbit | tetris.py:31-33 | rotating one of a kind's four rotation states gives one of the four again |
| Board.EmptyRow | tetris.py:123 | a fresh row has COLS cells and is not full |
| Board.EmptyBoard | tetris.py:66 | a fresh board is 20 x 10, every cell empty, no row full |
| Board.ClearLines | tetris.py:120-125 | the result is 20 x 10 with no full row; the count is the number of full rows; that many empty rows sit on top; below them are the non-full rows in their original order |
| Board.ClearWithoutFullRows | tetris.py:120-125 | clearing a board without full rows changes nothing and returns 0 |
| Board.ClearIdempotent | tetris.py:120-125 | clearing a just-cleared board changes nothing |
| Pieces.Spawn | tetris.py:25-29 | a new piece has its kind's shape and colour, y = 0, and x = `COLS//2 - width//2`, which centres it to within one cell and keeps it inside the board for all seven shapes |
| Pieces.SpawnLegalOnEmpty | tetris.py:29 | every kind can stand at its spawn position on an empty board |
| Pieces.Collides | tetris.py:41-48 | a placement collides if and only if some filled cell of the shape is out of bounds or over an occupied board cell |
| Pieces.Move | tetris.py:35-39 | the move succeeds exactly when the shifted placement does not collide; on success x and y shift by (dx, dy); on failure the piece is unchanged; the shape never changes |
| Pieces.MoveKeepsLegal | tetris.py:35-39 | a legal piece stays legal after any move attempt |
| Pieces.MoveUndo | tetris.py:35-39 | a successful move followed by the opposite move succeeds and restores the piece |
| Pieces.Turn | tetris.py:31-33 | x, y, kind and colour are kept; the rotated shape is taken exactly when it does not collide, otherwise the piece is unchanged |
| Pieces.TurnKeepsLegal | tetris.py:31-33 | a legal piece stays legal and in its kind's orbit after a rotate attempt |
| Pieces.LegalIsPlaced | tetris.py:41-48 | a placement that does not collide lies within the board |
| Pieces.Imprint | tetris.py:50-53 | after imprinting, exactly the cells the piece covers hold its colour, every other cell is as before, and the board stays 20 x 10 |
| Pieces.ImprintOutsideRows | tetris.py:50-53 | rows the piece does not reach are untouched |
| Pieces.ImprintFullRows | tetris.py:50-53 | imprinting a piece on a board without full rows makes at most as many full rows as the piece has rows |
| Pieces.HardDrop | tetris.py:93-94 | the drop only lowers the piece and comes to rest one row above a collision |
| Pieces.HardDropPath | tetris.py:93-94 | every row the drop passes through, down to where it rests, is free |
| Pieces.HardDropKeepsLegal | tetris.py:93-94 | a hard-dropped legal piece is still legal |
| Tetris.SpawnOk | tetris.py:25-29 | a spawned piece has its kind's colour and lies in its kind's orbit |
| Tetris.SaveRecord | tetris.py:80-83 | the stored record becomes the larger of the old record and the score |
| Tetris.Level | tetris.py:105 | the level is at least 1, and level l covers the scores from 1000(l-1) to just below 1000 l |
| Tetris.Delay | tetris.py:106 | the delay is at least 100 ms, at most 500 ms from level 1 on, and exactly 100 ms from level 9 on |
| Tetris.DelayNonIncreasing | tetris.py:105-106 | a higher score never lowers the level or lengthens the delay |
| Tetris.LockPiece | tetris.py:109-118 | the new board is the old one with the piece imprinted and its full rows cleared; at most 4 rows clear, so the table lookup is in range; score and lines grow by the table entry and the row count; the board stays 20 x 10 without full rows; the next piece is promoted; the game ends exactly when the promoted piece collides with that new board, and only then is the record saved |
| Tetris.LockKeepsInv | tetris.py:109-118 | the current piece of a running game lies on the board and has at most four rows, and locking it keeps the game invariant |
| Tetris.Relocated | tetris.py:35-39 | moving the current piece to another legal position keeps the game invariant |
| Tetris.Fall | tetris.py:100-101 | the invariant is kept; if the row below is free the piece moves down one row and nothing else changes; otherwise the piece is locked where it stands, exactly as by `LockPiece`, and the next piece is promoted; score and lines never fall |
| Tetris.Drop | tetris.py:93-95 | the piece is locked at its hard-drop position: the new board is the old one with the dropped piece imprinted and full rows cleared, and the result is `LockPiece` of the game with the piece dropped; the invariant is kept, the next piece is promoted, and score and lines never fall |
| Tetris.Tick | tetris.py:99-107 | every gravity tick keeps the invariant; afterwards the level equals score // 1000 + 1; a paused or finished game only has its level recomputed; a running game takes one `Fall` step; score and lines never fall |
| Tetris.TickFallsOrLocks | tetris.py:100-101 | a running tick moves the piece one row down on the same board when the row below is free, and otherwise leaves the board with the piece imprinted and full rows cleared and promotes the next piece |
| Tetris.KeyPressed | tetris.py:86-96 | every key press keeps the invariant; a finished game ignores keys; Left and Right are move attempts; Down is one `Fall` step; Up is a rotate attempt; Space is a `Drop`; other keys do nothing; score and lines never fall |
| Tetris.Restart | tetris.py:127-132 | a restarted game has an empty board, a fresh spawn of the first kind as the current piece and of the second as the next, zero score and lines, level 1, is running, satisfies the invariant, and keeps the record |
| Tiles.Cells | fase1.py:134-135 | the scan visits every tile of the map, only tiles of the map, in strict row-major order |
| Tiles.Sweep | fase1.py:134-149 | the sweep keeps the rect's size; it hits exactly when some scanned solid block overlaps the original rect; without a hit nothing moves |
| Tiles.SweepX | fase1.py:139-142 | horizontally the rect moves only against the sign of vx, not at all when vx is 0, and after a hit its leading edge lies on the edge line of a scanned solid block, which in a purely horizontal sweep is a block in the rect's own rows |
| Tiles.SweepY | fase1.py:143-149 | vertically the rect moves only against the sign of vy, not at all when vy is 0, and after a hit its leading edge lies on the edge line of a scanned solid block, which in a purely vertical sweep is a block in the rect's own columns |
| Tiles.SweepHitOverMap | fase1.py:134-138 | the sweep hits exactly when some tile of value 1 or 4 overlaps the rect |
| Tiles.ScannedSolid | fase1.py:134-136 | a solid cell of the scan is a solid tile of the map |
| Tiles.SweepXOverMap | fase1.py:139-142 | after a horizontal hit the rect's leading edge lies on the edge line of a solid tile of the map; with vy = 0 it rests flush against a solid tile beside it, in the rect's rows |
| Tiles.SweepYOverMap | fase1.py:143-149 | after a vertical hit the rect's leading edge lies on the edge line of a solid tile of the map; with vx = 0 it rests flush against a solid tile above or below it, in the rect's columns |
| Tiles.SweepTiles | fase1.py:132-149 | the same facts as the sweep, stated per tile of the map |
| Platformer.NewPlayer | fase1.py:73-79 | a new player is a 28 x 28 rect at the given top-left, at rest, not grounded, with 3 lives and no score |
| Platformer.NewEnemy | fase1.py:156-161 | a new enemy is a live 28 x 28 rect walking right at 1 pixel per frame, patrolling 64 pixels either side of its start x |
| Platformer.Pixels | fase1.py:97-101 | `int()` of a velocity truncates toward zero: the whole-pixel step has the velocity's sign and is zero exactly when the speed is below one pixel |
| Platformer.Steer | fase1.py:82-94 | vx is 4.5 right, -4.5 left (right wins when both are held) or 0; a jump from the ground sets vy to -15 before gravity and leaves the ground; otherwise gravity adds 0.9; vy never exceeds 20 |
| Platformer.RisesOnlyByJumping | fase1.py:88-94 | a player within the fall cap only gains upward speed by jumping from the ground |
| Platformer.Respawn | fase1.py:151-153 | respawn puts the rect's top-left at (TILE, SCREEN_H - 5 TILE) with its size kept and zero velocity, and leaves lives, score and the ground flag alone |
| Platformer.Collide | fase1.py:132-149 | the size is always kept and an untouched rect is unchanged; a horizontal call never changes y, vy or the ground flag; a right (left) move into a solid tile ends with the rect's right (left) edge on the edge line of a solid tile, and for the horizontal call `collide(vx, 0)` flush against a solid tile in the rect's rows; a vertical call `collide(0, vy)` that hits ends flush on a solid tile in the rect's columns; a downward hit zeroes vy and grounds the player; an upward hit zeroes vy and never grounds |
| Platformer.EnemyUpdate | fase1.py:163-181 | a dead enemy is unchanged; a live one advances x by exactly its old vx; vx is negated once for leaving the patrol range and once more when the probe finds no ground, so the two flips cancel; vx stays in {1, -1}; without ground y is unchanged; with ground the rect moves up so that the probe rect rests on the top of a solid tile in its columns |
| Platformer.EnemySpeedStaysUnit | fase1.py:156-181 | an enemy created with vx = 1 keeps vx in {1, -1} for any number of updates |
| Platformer.RemoveFirst | fase1.py:108 | `list.remove` of a present element shortens the list by one |
| Platformer.RemoveFirstAt | fase1.py:108 | `list.remove` drops the first occurrence and keeps the rest in order |
| Platformer.CollectFrom | fase1.py:106-109 | removing touched coins while walking a copy leaves exactly the untouched coins, in order, and adds 100 per removed coin |
| Platformer.CollectCoins | fase1.py:106-109 | coin pickup removes exactly the coins the player overlaps, keeps the rest in order, and adds 100 per removed coin |
| Platformer.ContactScan | fase1.py:112-123 | no enemy is added or removed; lives drop by at most one; a lost life respawns the player; when no life is lost only vy and the score change; when every enemy starts alive, the score grows by 200 per killed enemy |
| Platformer.FirstTouch | fase1.py:112-113 | the position of the first enemy the player overlaps, every earlier one being untouched, or the list length when none is touched |
| Platformer.ContactUntouched | fase1.py:112-113 | when the player touches no enemy, nothing changes |
| Platformer.ContactHit | fase1.py:119-123 | when the first touched enemy is not stomped, the player loses one life and respawns, and no enemy changes: the loop ends there |
| Platformer.ContactStomp | fase1.py:112-123 | when the first touched enemy is stomped, exactly that enemy dies and the player bounces with 200 points; a later touch, now rising, costs a life and respawns the player, otherwise the bounced player is the result |
| Platformer.ContactKeepsOrKills | fase1.py:112-123 | every enemy comes out unchanged or killed |
| Platformer.AtMostOneStomp | fase1.py:112-123 | a tick kills at most one enemy, because after a stomp the player rises at -7.5 and cannot stomp again |
| Platformer.NoStompWhenRising | fase1.py:115 | a player who is not falling kills nothing |
| Platformer.StompOrHit | fase1.py:113-123 | touching an enemy while falling with the bottom less than 12 pixels below its top kills it, bounces the player and scores 200; any other touch costs exactly one life and respawns the player |
| Platformer.Moved | fase1.py:96-103 | the horizontal pass steps x by the whole pixels of vx, keeps that x when the stepped rect overlaps no block (or vx is 0), and otherwise pulls it back flush against the face of a solid tile in the rect's rows, on the side vx points to; the vertical pass then steps y from the clamped x by the whole pixels of vy, keeps that rect and vy when nothing is overlapped (or vy is 0), and otherwise sets vy to 0 and pulls the rect back flush onto the top (falling) or against the bottom (rising) of a solid tile in the rect's columns; the ground flag is set exactly when a falling player's vertical step overlaps a block |
| Platformer.Meet | fase1.py:105-130 | after moving: the coins left are those the player misses; the player and enemies are what the contact rule makes of the player with 100 points per coin added; WIN exactly when the player ends on the flag, even with no lives; otherwise DEAD exactly when lives are at most 0 |
| Platformer.PlayerUpdate | fase1.py:81-130 | the update is steering, then moving, then `Meet`; WIN exactly when the player ends overlapping the flag, even with no lives; otherwise DEAD exactly when lives are at most 0; the coins left are those the moved player misses; the score adds 100 per coin and 200 per stomp; lives drop by at most one |
| Platformer.PlayerUpdateEnds | fase1.py:96-123 | with no life lost the player ends at the moved position with its ground flag; with one life lost it ends at the spawn point at rest |
| Level.ExtractFromCoins | fase1.py:189-193 | the extraction loop appends one coin per 2 tile, in scan order |
| Level.ExtractFromEnemies | fase1.py:189-195 | the extraction loop appends one enemy per 3 tile, in scan order |
| Level.ExtractFromFlag | fase1.py:196-197 | the extraction loop ends with the flag of the last 9 tile, or the initial flag if there is none |
| Level.ExtractFromNothing | fase1.py:184-197 | extraction started from empty lists and no flag yields exactly the filtered tiles |
| Level.Extract | fase1.py:189-197 | coins, enemies and flag are the 2, 3 and 9 tiles of the scan, mapped to their rects |
| Level.FilteredIsCell | fase1.py:189-190 | every tile a filter of the scan keeps is a real tile of the map |
| Level.CellIsFiltered | fase1.py:189-190 | every tile of the map a filter accepts is kept |
| Level.FilteredOrdered | fase1.py:189-190 | a filter of the scan keeps row-major order |
| Level.CoinSource | fase1.py:192-193 | each coin comes from a 2 tile, as (x+8, y+8, 16, 16) |
| Level.EnemySource | fase1.py:194-195 | each enemy comes from a 3 tile, placed at (x+2, y+2) |
| Level.ExtractCoins | fase1.py:189-193 | one coin (x+8, y+8, 16, 16) per 2 tile and no other, as many as there are 2 tiles, in row-major order |
| Level.ExtractEnemies | fase1.py:189-195 | one live, right-walking enemy at (x+2, y+2) per 3 tile and no other |
| Level.ExtractFlagPresent | fase1.py:196-197 | there is a flag exactly when some tile is 9 |
| Level.LastKeptIsLatest | fase1.py:189-197 | in a row-major scan, each kept cell is the last kept one or comes before it |
| Level.FlagTileNotAfterLast | fase1.py:196-197 | every 9 tile is the last 9 of the scan or comes before it |
| Level.ExtractFlagLast | fase1.py:196-197 | the flag is (x+8, y, 32, 96) of the last 9 tile in scan order |
| Level.ProbeMeetsOwnTileOnly | fase1.py:169-175 | the ground probe of a placed enemy overlaps no block but its own tile's |
| Level.PlacedEnemyStaysPut | fase1.py:163-181 | a placed enemy turns round on its first step and is back where it was placed after its second |
| Level.StartWorld | fase1.py:184-200 | play starts with the coins and enemies of the map in scan order, every enemy alive, the flag region of the last 9 tile in scan order (none without a 9 tile), and a 3-life player at rest, not grounded, at the spawn point |
| Level.AdvanceEnemies | fase1.py:264-268 | updating every enemy and removing the dead is the same as updating the live ones; only live enemies remain |
| Level.PlayTick | fase1.py:261-272 | an ended round does not change; in a running round the player and coins are those of the player update and the enemies are its enemies advanced with the dead removed; the round becomes WIN exactly when the player ends on the flag, LOSE exactly when it is not a win and lives are at most 0; only live enemies remain; coins and enemies never grow |
| Level.Reset | fase1.py:224-243 | reset puts the player back at spawn, at rest, with 3 lives and no score and its ground flag untouched, and starts play with the coins, enemies and flag rebuilt from the map in scan order |
| Level.ResetIsRestart | fase1.py:224-243 | a reset level equals the level as first built from its map, except that the ground flag is kept |

## Left out

- The tkinter canvas, button and text items, and `root.after` scheduling are user interface. `Tetris.Delay` gives the delay, but nothing waits on it.
- `record.txt` reading and writing is file I/O. Only the "record becomes the larger of record and score" rule is modelled.
- `random.choice` for new pieces is randomness. The kind of each new piece is a parameter.
- Colours are an enumeration, not hex strings, and shape cells are booleans, not 0/1 integers.
- pygame itself is left out: display, fonts, clock, event queue, `key.get_pressed`, drawing, quit and ESC handling. The R key is `Level.Reset`.
- `Platformer.Steer`: the player's float velocities are exact integers in tenths of a pixel per frame. Every constant the source uses (4.5, 0.9, -15, -7.5, 20) is a whole number of tenths. Binary floating-point rounding is not modelled: a sum of several 0.9 steps can land just below a whole pixel, where the source's `int()` gives one pixel less than the model's `Pixels`.
- The keyboard is read through `pygame.key.get_pressed`, which is I/O. `Platformer.Keys` holds the three decisions the update takes from it: left (LEFT or A), right (RIGHT or D) and jump (SPACE, W or UP).
- Rects with negative width or height are not normalised, unlike pygame. Every rect the source builds has positive size.
- The `paused` flag of the falling-block game is carried but never set, because the source never sets it.
- Enemies leave the list by filtering, not by object identity. Both keep the live enemies in order.
- Module-level globals are one explicit `Level.World` record, not in-place list rebinding.

- `Platformer.Collide`: after a clamp the contract names a solid tile whose face the rect now rests against, in the rect's rows (horizontal call) or columns (vertical call). When several such tiles exist, it does not say which one. The exact tile is the last one in scan order that overlaps the rect as it stands then, and `Tiles.Sweep` defines that scan step by step.
- `Platformer.Moved`: the same holds for both of its passes, which are `Collide` calls.

=== FILE: board.dfy ===
/**
 The falling-block board: ROWS rows of COLS cells, row 0 at the top, each cell
 empty or holding a colour, and the simultaneous removal of full rows
 (tetris.py lines 5, 66 and 120-125).
 */
module Board {
  import opened Wrappers
  import opened Seqs
  import opened Matrix
  import opened Tetromino

  const ROWS: nat := 20
  const COLS: nat := 10

  /** One square of the board: empty, or the colour of the piece that settled there. */
  type Square = Option<Color>
  type Row = seq<Square>
  type Board = seq<Row>

  predicate WellFormed(b: Board)
  {
    IsRect(b, ROWS, COLS)
  }

  /** Every cell of the row holds a colour. */
  predicate IsFull(row: Row)
  {
    forall c :: 0 <= c < |row| ==> row[c].Some?
  }

  /** Some cell of the row is empty: the rows the clearing comprehension keeps. */
  predicate HasGap(row: Row)
  {
    exists c :: 0 <= c < |row| && row[c].None?
  }

  ghost predicate NoFullRows(b: Board)
  {
    forall r :: 0 <= r < |b| ==> !IsFull(b[r])
  }

  function EmptyRow(): (row: Row)
    ensures |row| == COLS && HasGap(row) && !IsFull(row)
  {
    var row := seq(COLS, _ => None);
    assert row[0].None?;
    row
  }

  function EmptyBoard(): (b: Board)
    ensures WellFormed(b) && NoFullRows(b)
    ensures forall r, c :: 0 <= r < ROWS && 0 <= c < COLS ==> b[r][c].None?
  {
    seq(ROWS, _ => EmptyRow())
  }

  /** Outcome of clearing: the new board and how many rows were removed. */
  datatype Cleared = Cleared(board: Board, count: nat)

  /**
   Drops every full row at once, keeps the others in order, and pads the top
   with as many empty rows as were dropped.
   */
  function ClearLines(b: Board): (r: Cleared)
    requires WellFormed(b)
    ensures WellFormed(r.board) && NoFullRows(r.board)
    ensures r.count == Count(b, IsFull)
    ensures forall i :: 0 <= i < r.count ==> r.board[i] == EmptyRow()
    ensures r.board[r.count..] == Filter(b, HasGap)
  {
    var kept := Filter(b, HasGap);
    var cleared := ROWS - |kept|;
    CountSplit(b, IsFull, HasGap);
    var nb := seq(cleared, _ => EmptyRow()) + kept;
    assert nb[cleared..] == kept;
    FilterFrom(b, HasGap);
    assert forall i :: cleared <= i < |nb| ==> nb[i] == kept[i - cleared];
    Cleared(nb, cleared)
  }

  /** Clearing a board with no full row changes nothing and scores nothing. */
  lemma ClearWithoutFullRows(b: Board)
    requires WellFormed(b) && NoFullRows(b)
    ensures ClearLines(b) == Cleared(b, 0)
  {
    FilterKeepsAll(b, HasGap);
    CountSplit(b, IsFull, HasGap);
    var r := ClearLines(b);
    assert r.board == r.board[r.count..];
  }

  /** Clearing is idempotent. */
  lemma ClearIdempotent(b: Board)
    requires WellFormed(b)
    ensures ClearLines(ClearLines(b).board) == Cleared(ClearLines(b).board, 0)
  {
    ClearWithoutFullRows(ClearLines(b).board);
  }
}

=== FILE: level.dfy ===
/**
 The platformer level as one owned state: entities derived from the tile map
 (fase1.py lines 184-200, 232-240), the PLAY-state transition
 (fase1.py lines 261-272) and the level reset (fase1.py lines 224-243, 255-257).
 */
module Level {
  import opened Wrappers
  import opened Seqs
  import opened Rects
  import opened Tiles
  import opened Platformer

  /** Tile values that mark entities rather than terrain. */
  const COIN_TILE: int := 2
  const ENEMY_TILE: int := 3
  const FLAG_TILE: int := 9

  predicate IsCoinCell(cell: Cell) { cell.v == COIN_TILE }
  predicate IsEnemyCell(cell: Cell) { cell.v == ENEMY_TILE }
  predicate IsFlagCell(cell: Cell) { cell.v == FLAG_TILE }

  /** A 16x16 coin centred in its tile. */
  function CoinRect(row: int, col: int): Rect
  {
    Rect(col * TILE + 8, row * TILE + 8, TILE - 16, TILE - 16)
  }

  /** A flag pole one tile wide and three tall, hanging down from its tile's top edge. */
  function FlagRect(row: int, col: int): Rect
  {
    Rect(col * TILE + 8, row * TILE, TILE, TILE * 3)
  }

  function EnemyFor(row: int, col: int): Enemy
  {
    NewEnemy(col * TILE + 2, row * TILE + 2)
  }

  function CoinOf(cell: Cell): Rect { CoinRect(cell.row, cell.col) }
  function EnemyOf(cell: Cell): Enemy { EnemyFor(cell.row, cell.col) }
  function FlagOf(cell: Cell): Rect { FlagRect(cell.row, cell.col) }

  datatype Entities = Entities(coins: seq<Rect>, enemies: seq<Enemy>, flag: Option<Rect>)

  /** One tile of the extraction loop: a coin per 2, an enemy per 3, and a 9 replaces the flag. */
  function Absorb(acc: Entities, cell: Cell): Entities
  {
    if cell.v == COIN_TILE then acc.(coins := acc.coins + [CoinOf(cell)])
    else if cell.v == ENEMY_TILE then acc.(enemies := acc.enemies + [EnemyOf(cell)])
    else if cell.v == FLAG_TILE then acc.(flag := Some(FlagOf(cell)))
    else acc
  }

  /** The extraction loop over `cs`, front to back. */
  function ExtractFrom(acc: Entities, cs: seq<Cell>): Entities
    decreases |cs|
  {
    if |cs| == 0 then acc else ExtractFrom(Absorb(acc, cs[0]), cs[1..])
  }

  /** The loop collects one coin per coin cell, in scan order. */
  lemma {:induction false} ExtractFromCoins(acc: Entities, cs: seq<Cell>)
    ensures ExtractFrom(acc, cs).coins == acc.coins + Map(Filter(cs, IsCoinCell), CoinOf)
    decreases |cs|
  {
    if |cs| > 0 {
      var cell := cs[0];
      var acc' := Absorb(acc, cell);
      ExtractFromCoins(acc', cs[1..]);
      var fc := Filter(cs[1..], IsCoinCell);
      if IsCoinCell(cell) {
        assert Filter(cs, IsCoinCell) == [cell] + fc;
        MapAppend([cell], fc, CoinOf);
        assert acc'.coins == acc.coins + [CoinOf(cell)];
      } else {
        assert Filter(cs, IsCoinCell) == fc;
        assert acc'.coins == acc.coins;
      }
    }
  }

  /** The loop collects one enemy per enemy cell, in scan order. */
  lemma {:induction false} ExtractFromEnemies(acc: Entities, cs: seq<Cell>)
    ensures ExtractFrom(acc, cs).enemies == acc.enemies + Map(Filter(cs, IsEnemyCell), EnemyOf)
    decreases |cs|
  {
    if |cs| > 0 {
      var cell := cs[0];
      var acc' := Absorb(acc, cell);
      ExtractFromEnemies(acc', cs[1..]);
      var fe := Filter(cs[1..], IsEnemyCell);
      if IsEnemyCell(cell) {
        assert Filter(cs, IsEnemyCell) == [cell] + fe;
        MapAppend([cell], fe, EnemyOf);
        assert acc'.enemies == acc.enemies + [EnemyOf(cell)];
      } else {
        assert Filter(cs, IsEnemyCell) == fe;
        assert acc'.enemies == acc.enemies;
      }
    }
  }

  /** Each 9 overwrites the flag, so the loop ends with the flag of the last 9. */
  lemma {:induction false} ExtractFromFlag(acc: Entities, cs: seq<Cell>)
    ensures var flags := Filter(cs, IsFlagCell);
      ExtractFrom(acc, cs).flag == if |flags| == 0 then acc.flag else Some(FlagOf(flags[|flags| - 1]))
    decreases |cs|
  {
    if |cs| > 0 {
      var cell := cs[0];
      var acc' := Absorb(acc, cell);
      ExtractFromFlag(acc', cs[1..]);
      var ff := Filter(cs[1..], IsFlagCell);
      if IsFlagCell(cell) {
        assert Filter(cs, IsFlagCell) == [cell] + ff;
        assert acc'.flag == Some(FlagOf(cell));
      } else {
        assert Filter(cs, IsFlagCell) == ff;
        assert acc'.flag == acc.flag;
      }
    }
  }

  /** A filter of a row-major cell list is row-major. */
  lemma {:induction false} FilterRowMajor(cs: seq<Cell>, keep: Cell -> bool)
    requires RowMajor(cs)
    ensures RowMajor(Filter(cs, keep))
  {
    if |cs| > 0 {
      FilterRowMajor(cs[1..], keep);
      var rest := Filter(cs[1..], keep);
      FilterMembers(cs[1..], keep);
      assert forall j :: 0 <= j < |rest| ==> rest[j] in cs[1..];
      assert forall j :: 0 <= j < |rest| ==> Before(cs[0], rest[j]);
    }
  }

  const NoEntities := Entities([], [], None)

  /** The loop started from nothing yields exactly the filtered cells. */
  lemma ExtractFromNothing(cs: seq<Cell>)
    ensures ExtractFrom(NoEntities, cs).coins == Map(Filter(cs, IsCoinCell), CoinOf)
    ensures ExtractFrom(NoEntities, cs).enemies == Map(Filter(cs, IsEnemyCell), EnemyOf)
    ensures var flags := Filter(cs, IsFlagCell);
      ExtractFrom(NoEntities, cs).flag == if |flags| == 0 then None else Some(FlagOf(flags[|flags| - 1]))
  {
    ExtractFromCoins(NoEntities, cs);
    assert [] + Map(Filter(cs, IsCoinCell), CoinOf) == Map(Filter(cs, IsCoinCell), CoinOf);
    ExtractFromEnemies(NoEntities, cs);
    assert [] + Map(Filter(cs, IsEnemyCell), EnemyOf) == Map(Filter(cs, IsEnemyCell), EnemyOf);
    ExtractFromFlag(NoEntities, cs);
  }

  /** Entities of a tile map, in the order the source's nested loops meet them. */
  function Extract(t: TileMap): (r: Entities)
    ensures r.coins == Map(Filter(Cells(t), IsCoinCell), CoinOf)
    ensures r.enemies == Map(Filter(Cells(t), IsEnemyCell), EnemyOf)
    ensures var flags := Filter(Cells(t), IsFlagCell);
      r.flag == if |flags| == 0 then None else Some(FlagOf(flags[|flags| - 1]))
  {
    var cs := Cells(t);
    ExtractFromNothing(cs);
    ExtractFrom(NoEntities, cs)
  }

  /** Every cell a filter of the scan keeps is a real tile of the map. */
  lemma FilteredIsCell(t: TileMap, keep: Cell -> bool, i: int)
    requires 0 <= i < |Filter(Cells(t), keep)|
    ensures IsCellOf(t, Filter(Cells(t), keep)[i]) && keep(Filter(Cells(t), keep)[i])
  {
    var cs := Cells(t);
    var f := Filter(cs, keep);
    FilterMembers(cs, keep);
    assert f[i] in f;
    assert f[i] in cs;
  }

  /** Every tile a filter of the scan accepts is kept, at some index. */
  lemma CellIsFiltered(t: TileMap, keep: Cell -> bool, r: int, c: int) returns (k: int)
    requires InMap(t, r, c) && keep(Cell(r, c, t[r][c]))
    ensures 0 <= k < |Filter(Cells(t), keep)| && Filter(Cells(t), keep)[k] == Cell(r, c, t[r][c])
  {
    var cs := Cells(t);
    var f := Filter(cs, keep);
    FilterMembers(cs, keep);
    assert Cell(r, c, t[r][c]) in cs;
    assert Cell(r, c, t[r][c]) in f;
    k :| 0 <= k < |f| && f[k] == Cell(r, c, t[r][c]);
  }

  /** A filter of the scan is in strict row-major order. */
  lemma FilteredOrdered(t: TileMap, keep: Cell -> bool, i: int, j: int)
    requires 0 <= i < j < |Filter(Cells(t), keep)|
    ensures Before(Filter(Cells(t), keep)[i], Filter(Cells(t), keep)[j])
  {
    FilterRowMajor(Cells(t), keep);
  }

  /** The tile a given coin was made from. */
  lemma CoinSource(t: TileMap, i: int) returns (r: int, c: int)
    requires 0 <= i < |Extract(t).coins|
    ensures InMap(t, r, c) && t[r][c] == COIN_TILE && Extract(t).coins[i] == CoinRect(r, c)
  {
    var f := Filter(Cells(t), IsCoinCell);
    FilteredIsCell(t, IsCoinCell, i);
    r, c := f[i].row, f[i].col;
  }

  /** The tile a given enemy was made from. */
  lemma EnemySource(t: TileMap, i: int) returns (r: int, c: int)
    requires 0 <= i < |Extract(t).enemies|
    ensures InMap(t, r, c) && t[r][c] == ENEMY_TILE && Extract(t).enemies[i] == EnemyFor(r, c)
  {
    var f := Filter(Cells(t), IsEnemyCell);
    FilteredIsCell(t, IsEnemyCell, i);
    r, c := f[i].row, f[i].col;
  }

  /**
   One coin per coin tile: every coin sits on a coin tile, every coin tile has
   its coin, their number is the number of coin tiles, and they come in
   row-major order (top to bottom, then left to right).
   */
  lemma ExtractCoins(t: TileMap)
    ensures var coins := Extract(t).coins;
      && |coins| == Count(Cells(t), IsCoinCell)
      && (forall i :: 0 <= i < |coins| ==>
            exists r, c :: InMap(t, r, c) && t[r][c] == COIN_TILE && coins[i] == CoinRect(r, c))
      && (forall r, c :: InMap(t, r, c) && t[r][c] == COIN_TILE ==> CoinRect(r, c) in coins)
      && (forall i, j :: 0 <= i < j < |coins| ==>
            coins[i].y < coins[j].y || (coins[i].y == coins[j].y && coins[i].x < coins[j].x))
  {
    var f := Filter(Cells(t), IsCoinCell);
    var coins := Extract(t).coins;
    assert coins == Map(f, CoinOf);
    forall i | 0 <= i < |coins|
      ensures exists r, c :: InMap(t, r, c) && t[r][c] == COIN_TILE && coins[i] == CoinRect(r, c)
    {
      var r, c := CoinSource(t, i);
    }
    forall r, c | InMap(t, r, c) && t[r][c] == COIN_TILE
      ensures CoinRect(r, c) in coins
    {
      var k := CellIsFiltered(t, IsCoinCell, r, c);
      assert coins[k] == CoinRect(r, c);
    }
    forall i, j | 0 <= i < j < |coins|
      ensures coins[i].y < coins[j].y || (coins[i].y == coins[j].y && coins[i].x < coins[j].x)
    {
      FilteredOrdered(t, IsCoinCell, i, j);
      assert coins[i] == CoinRect(f[i].row, f[i].col);
      assert coins[j] == CoinRect(f[j].row, f[j].col);
    }
  }

  /** One enemy per enemy tile, placed 2 pixels into the tile, alive and walking right. */
  lemma ExtractEnemies(t: TileMap)
    ensures var es := Extract(t).enemies;
      && |es| == Count(Cells(t), IsEnemyCell)
      && (forall i :: 0 <= i < |es| ==> (es[i].alive && es[i].vx == 1 &&
            exists r, c :: InMap(t, r, c) && t[r][c] == ENEMY_TILE && es[i] == EnemyFor(r, c)))
      && (forall r, c :: InMap(t, r, c) && t[r][c] == ENEMY_TILE ==> EnemyFor(r, c) in es)
  {
    var f := Filter(Cells(t), IsEnemyCell);
    var es := Extract(t).enemies;
    assert es == Map(f, EnemyOf);
    forall i | 0 <= i < |es|
      ensures es[i].alive && es[i].vx == 1 &&
        exists r, c :: InMap(t, r, c) && t[r][c] == ENEMY_TILE && es[i] == EnemyFor(r, c)
    {
      var r, c := EnemySource(t, i);
    }
    forall r, c | InMap(t, r, c) && t[r][c] == ENEMY_TILE
      ensures EnemyFor(r, c) in es
    {
      var k := CellIsFiltered(t, IsEnemyCell, r, c);
      assert es[k] == EnemyFor(r, c);
    }
  }

  /** In a row-major list, every kept element is the last kept one or comes before it. */
  lemma {:induction false} LastKeptIsLatest(cs: seq<Cell>, keep: Cell -> bool, x: Cell)
    requires RowMajor(cs) && x in cs && keep(x)
    ensures var f := Filter(cs, keep); |f| > 0 && (f[|f| - 1] == x || Before(x, f[|f| - 1]))
  {
    var f := Filter(cs, keep);
    FilterRowMajor(cs, keep);
    FilterMembers(cs, keep);
    assert x in f;
    var k :| 0 <= k < |f| && f[k] == x;
    if k < |f| - 1 {
      assert Before(f[k], f[|f| - 1]);
    }
  }

  /** Every 9 tile is the last flag cell of the scan or comes before it. */
  lemma FlagTileNotAfterLast(t: TileMap, r: int, c: int)
    requires InMap(t, r, c) && t[r][c] == FLAG_TILE
    ensures var f := Filter(Cells(t), IsFlagCell);
      |f| > 0 && (f[|f| - 1] == Cell(r, c, FLAG_TILE) || Before(Cell(r, c, FLAG_TILE), f[|f| - 1]))
  {
    assert Cell(r, c, t[r][c]) in Cells(t);
    LastKeptIsLatest(Cells(t), IsFlagCell, Cell(r, c, FLAG_TILE));
  }

  /** The flag belongs to the last 9 in scan order: every other 9 comes before it. */
  lemma ExtractFlagLast(t: TileMap) returns (r: int, c: int)
    requires Extract(t).flag.Some?
    ensures InMap(t, r, c) && t[r][c] == FLAG_TILE && Extract(t).flag.value == FlagRect(r, c)
    ensures forall r', c' :: InMap(t, r', c') && t[r'][c'] == FLAG_TILE ==>
      (r', c') == (r, c) || Before(Cell(r', c', FLAG_TILE), Cell(r, c, FLAG_TILE))
  {
    var f := Filter(Cells(t), IsFlagCell);
    var last := f[|f| - 1];
    FilteredIsCell(t, IsFlagCell, |f| - 1);
    r, c := last.row, last.col;
    assert last == Cell(r, c, FLAG_TILE);
    forall r', c' | InMap(t, r', c') && t[r'][c'] == FLAG_TILE
      ensures (r', c') == (r, c) || Before(Cell(r', c', FLAG_TILE), Cell(r, c, FLAG_TILE))
    {
      FlagTileNotAfterLast(t, r', c');
    }
  }

  /** There is a flag exactly when some tile of the map is 9. */
  lemma ExtractFlagPresent(t: TileMap)
    ensures Extract(t).flag.Some? <==> exists r, c :: InMap(t, r, c) && t[r][c] == FLAG_TILE
  {
    if Extract(t).flag.Some? {
      var r, c := ExtractFlagLast(t);
    } else {
      forall r, c | InMap(t, r, c)
        ensures t[r][c] != FLAG_TILE
      {
        if t[r][c] == FLAG_TILE {
          var k := CellIsFiltered(t, IsFlagCell, r, c);
        }
      }
    }
  }

  /**
   A probe a pixel or two to the side of a freshly placed enemy touches only
   the enemy's own tile: it reaches down exactly to the top edge of the tile
   below, and touching edges do not count as overlap.
   */
  lemma ProbeMeetsOwnTileOnly(r: int, c: int, d: int, r': int, c': int)
    requires 0 <= d <= 1
    requires Overlaps(Rect(c * TILE + 2 + d, r * TILE + 2 + PROBE_DEPTH, TILE - 4, TILE - 4), Block(r', c'))
    ensures r' == r && c' == c
  {
  }

  /**
   Enemies never patrol: the ground probe of an enemy placed by the map never
   finds ground, even on a solid floor, so its first step turns it round and
   its second step brings it back to exactly where it was placed.
   */
  lemma {:induction false} PlacedEnemyStaysPut(t: TileMap, r: int, c: int)
    requires InMap(t, r, c) && t[r][c] == ENEMY_TILE
    ensures EnemyUpdate(EnemyFor(r, c), t) == EnemyFor(r, c).(rect := EnemyFor(r, c).rect.(x := c * TILE + 3), vx := -1)
    ensures EnemySteps(EnemyFor(r, c), t, 2) == EnemyFor(r, c)
  {
    var e0 := EnemyFor(r, c);
    forall r', c' | InMap(t, r', c') && IsSolid(t[r'][c'])
      ensures !Overlaps(Probe(e0), Block(r', c'))
    {
      if Overlaps(Probe(e0), Block(r', c')) {
        ProbeMeetsOwnTileOnly(r, c, 1, r', c');
      }
    }
    var e1 := EnemyUpdate(e0, t);
    assert e1 == e0.(rect := e0.rect.(x := c * TILE + 3), vx := -1);
    forall r', c' | InMap(t, r', c') && IsSolid(t[r'][c'])
      ensures !Overlaps(Probe(e1), Block(r', c'))
    {
      if Overlaps(Probe(e1), Block(r', c')) {
        ProbeMeetsOwnTileOnly(r, c, 0, r', c');
      }
    }
    var e2 := EnemyUpdate(e1, t);
    assert e2 == e0;
    assert EnemySteps(e0, t, 2) == EnemySteps(e1, t, 1) == EnemySteps(e2, t, 0);
  }

  datatype RoundState = Play | Won | Lost

  /** Everything the level owns: the map, the player, what is left of coins and enemies, the flag, and the round state. */
  datatype World = World(
    tiles: TileMap,
    player: Player,
    coins: seq<Rect>,
    enemies: seq<Enemy>,
    flag: Option<Rect>,
    state: RoundState)

  /** The start of play: entities from the map and the player at the spawn point. */
  function StartWorld(t: TileMap): (w: World)
    ensures w.state == Play && w.tiles == t
    ensures w.player.rect == Rect(SPAWN_X, SPAWN_Y, TILE - 4, TILE - 4)
    ensures w.player.lives == START_LIVES && w.player.score == 0 && w.player.vx == 0 && w.player.vy == 0
    ensures !w.player.onGround
    ensures w.coins == Map(Filter(Cells(t), IsCoinCell), CoinOf)
    ensures w.enemies == Map(Filter(Cells(t), IsEnemyCell), EnemyOf)
    ensures var flags := Filter(Cells(t), IsFlagCell);
      w.flag == if |flags| == 0 then None else Some(FlagOf(flags[|flags| - 1]))
    ensures forall i :: 0 <= i < |w.enemies| ==> w.enemies[i].alive
  {
    var ents := Extract(t);
    ExtractEnemies(t);
    World(t, NewPlayer(SPAWN_X, SPAWN_Y), ents.coins, ents.enemies, ents.flag, Play)
  }

  function Updater(t: TileMap): Enemy -> Enemy
  {
    e => EnemyUpdate(e, t)
  }

  /**
   The enemy loop of the main loop: update every enemy, then drop the dead
   ones, as the source does by removing from the list while iterating a copy.
   */
  function AdvanceEnemies(es: seq<Enemy>, t: TileMap): (r: seq<Enemy>)
    ensures r == Map(Filter(es, IsAlive), Updater(t))
    ensures forall i :: 0 <= i < |r| ==> r[i].alive
    ensures |r| == Count(es, IsAlive)
  {
    MapFilterCommute(es, Updater(t), IsAlive);
    Filter(Map(es, Updater(t)), IsAlive)
  }

  /**
   One frame in which the round is running: update the player from this
   frame's keys, then the enemies, and end the round on a win or a death.
   A round that has ended stays as it is.
   */
  function PlayTick(w: World, k: Keys): (r: World)
    ensures w.state != Play ==> r == w
    ensures r.tiles == w.tiles && r.flag == w.flag
    ensures w.state == Play ==> (r.state == Won <==> w.flag.Some? && Overlaps(r.player.rect, w.flag.value))
    ensures w.state == Play ==> (r.state == Lost <==> r.state != Won && r.player.lives <= 0)
    ensures w.state == Play ==> forall i :: 0 <= i < |r.enemies| ==> r.enemies[i].alive
    ensures w.state == Play ==> |r.coins| <= |w.coins| && |r.enemies| <= |w.enemies|
    ensures w.state == Play ==>
      var s := PlayerUpdate(w.player, k, w.tiles, w.coins, w.enemies, w.flag);
      && r.player == s.player
      && r.coins == s.coins
      && r.enemies == AdvanceEnemies(s.enemies, w.tiles)
  {
    if w.state != Play then w
    else
      var s := PlayerUpdate(w.player, k, w.tiles, w.coins, w.enemies, w.flag);
      var es := AdvanceEnemies(s.enemies, w.tiles);
      var state := if s.outcome == Win then Won else if s.outcome == Dead then Lost else Play;
      w.(player := s.player, coins := s.coins, enemies := es, state := state)
  }

  /**
   The R key: rebuild coins, enemies and flag from the map, put the player
   back at the spawn point with three lives and no score, and play again.
   */
  function Reset(w: World): (r: World)
    ensures r.state == Play && r.tiles == w.tiles
    ensures r.player.lives == START_LIVES && r.player.score == 0
    ensures r.player.rect == Rect(SPAWN_X, SPAWN_Y, w.player.rect.w, w.player.rect.h)
    ensures r.player.vx == 0 && r.player.vy == 0 && r.player.onGround == w.player.onGround
    ensures r.coins == Map(Filter(Cells(w.tiles), IsCoinCell), CoinOf)
    ensures r.enemies == Map(Filter(Cells(w.tiles), IsEnemyCell), EnemyOf)
    ensures var flags := Filter(Cells(w.tiles), IsFlagCell);
      r.flag == if |flags| == 0 then None else Some(FlagOf(flags[|flags| - 1]))
    ensures forall i :: 0 <= i < |r.enemies| ==> r.enemies[i].alive
  {
    var ents := Extract(w.tiles);
    ExtractEnemies(w.tiles);
    var p := Respawn(w.player).(lives := START_LIVES, score := 0);
    World(w.tiles, p, ents.coins, ents.enemies, ents.flag, Play)
  }

  /** Resetting a level returns it to its starting state, except for the ground flag, which respawning leaves alone. */
  lemma ResetIsRestart(w: World)
    requires w.player.rect.w == TILE - 4 && w.player.rect.h == TILE - 4
    ensures Reset(w) == StartWorld(w.tiles).(player := StartWorld(w.tiles).player.(onGround := w.player.onGround))
  {
  }
}

=== FILE: matrix.dfy ===
/**
 Row-major matrices and the quarter-turn used for piece rotation:
 reverse the rows, then zip them column by column (tetris.py line 22).
 */
module Matrix {

  /** `m` has `rows` rows of exactly `cols` cells each. */
  predicate IsRect<T>(m: seq<seq<T>>, rows: nat, cols: nat)
  {
    |m| == rows && forall i :: 0 <= i < |m| ==> |m[i]| == cols
  }

  /** Length of the shortest row, which is how many tuples zip produces; 0 for no rows. */
  function MinWidth<T>(m: seq<seq<T>>): (w: nat)
    ensures forall i :: 0 <= i < |m| ==> w <= |m[i]|
    ensures |m| > 0 ==> exists i :: 0 <= i < |m| && w == |m[i]|
    ensures |m| == 0 ==> w == 0
  {
    if |m| == 0 then 0
    else if |m| == 1 then |m[0]|
    else
      var rest := MinWidth(m[1..]);
      assert forall i :: 1 <= i < |m| ==> m[1..][i - 1] == m[i];
      if |m[0]| <= rest then |m[0]| else rest
  }

  /**
   Clockwise quarter turn: column j of the row-reversed matrix becomes row j.
   A ragged matrix is cut to its shortest row, as zip does.
   */
  function Rotate<T>(m: seq<seq<T>>): (r: seq<seq<T>>)
    ensures |r| == MinWidth(m)
    ensures forall j :: 0 <= j < |r| ==> |r[j]| == |m|
    ensures forall j, i :: 0 <= j < |r| && 0 <= i < |m| ==> r[j][i] == m[|m| - 1 - i][j]
  {
    seq(MinWidth(m), j requires 0 <= j < MinWidth(m) =>
      seq(|m|, i requires 0 <= i < |m| => m[|m| - 1 - i][j]))
  }

  /** `n` successive quarter turns. */
  function RotateN<T>(m: seq<seq<T>>, n: nat): seq<seq<T>>
  {
    if n == 0 then m else Rotate(RotateN(m, n - 1))
  }

  /** A rows x cols matrix turns into a cols x rows matrix. */
  lemma RotateDims<T>(m: seq<seq<T>>, rows: nat, cols: nat)
    requires IsRect(m, rows, cols) && rows >= 1
    ensures IsRect(Rotate(m), cols, rows)
  {
    var k :| 0 <= k < |m| && MinWidth(m) == |m[k]|;
  }

  /** Two quarter turns are a half turn: both indices are reflected. */
  lemma HalfTurn<T>(m: seq<seq<T>>, rows: nat, cols: nat)
    requires IsRect(m, rows, cols) && rows >= 1 && cols >= 1
    ensures IsRect(Rotate(Rotate(m)), rows, cols)
    ensures forall i, j :: 0 <= i < rows && 0 <= j < cols ==>
      Rotate(Rotate(m))[i][j] == m[rows - 1 - i][cols - 1 - j]
  {
    RotateDims(m, rows, cols);
    RotateDims(Rotate(m), cols, rows);
  }

  /** Four quarter turns give back the original matrix (tetris.py line 22). */
  lemma RotateFour<T>(m: seq<seq<T>>, rows: nat, cols: nat)
    requires IsRect(m, rows, cols) && rows >= 1 && cols >= 1
    ensures RotateN(m, 4) == m
  {
    HalfTurn(m, rows, cols);
    var h := Rotate(Rotate(m));
    HalfTurn(h, rows, cols);
    var f := Rotate(Rotate(h));
    assert RotateN(m, 1) == Rotate(RotateN(m, 0)) == Rotate(m);
    assert RotateN(m, 2) == Rotate(RotateN(m, 1)) == h;
    assert RotateN(m, 3) == Rotate(RotateN(m, 2));
    assert RotateN(m, 4) == Rotate(RotateN(m, 3)) == f;
    assert |f| == |m|;
    forall i | 0 <= i < rows
      ensures f[i] == m[i]
    {
      assert |f[i]| == |m[i]|;
      forall j | 0 <= j < cols
        ensures f[i][j] == m[i][j]
      {
        assert f[i][j] == h[rows - 1 - i][cols - 1 - j];
      }
    }
  }
}

=== FILE: pieces.dfy ===
/**
 The active piece: spawning, the legality test, atomic move and rotate,
 imprinting into the board and the hard drop (tetris.py lines 24-53 and 93-95).
 */
module Pieces {
  import opened Wrappers
  import opened Seqs
  import opened Matrix
  import opened Tetromino
  import opened Board

  datatype Piece = Piece(kind: Kind, shape: Shape, color: Color, x: int, y: int)

  /** Board cell (col, row) exists and is empty. */
  predicate Free(b: Board, col: int, row: int)
    requires WellFormed(b)
  {
    0 <= col < COLS && 0 <= row < ROWS && b[row][col].None?
  }

  /** Some occupied cell of `s` anchored at (x, y) leaves the board or hits a coloured cell. */
  ghost predicate Blocked(s: Shape, x: int, y: int, b: Board)
    requires WellFormed(b)
  {
    exists r, c :: 0 <= r < |s| && 0 <= c < |s[r]| && s[r][c] && !Free(b, x + c, y + r)
  }

  ghost predicate Legal(p: Piece, b: Board)
    requires WellFormed(b)
  {
    !Blocked(p.shape, p.x, p.y, b)
  }

  /** Every occupied cell of the piece lies on the board. */
  ghost predicate Placed(p: Piece)
  {
    forall r, c :: 0 <= r < |p.shape| && 0 <= c < |p.shape[r]| && p.shape[r][c] ==>
      0 <= p.x + c < COLS && 0 <= p.y + r < ROWS
  }

  /** Board cell (col, row) lies under an occupied cell of the piece. */
  predicate Covers(p: Piece, row: int, col: int)
  {
    && 0 <= row - p.y < |p.shape|
    && 0 <= col - p.x < |p.shape[row - p.y]|
    && p.shape[row - p.y][col - p.x]
  }

  lemma LegalIsPlaced(p: Piece, b: Board)
    requires WellFormed(b) && Legal(p, b)
    ensures Placed(p)
  {
  }

  /** A new piece of kind `k`: canonical shape, centred on the top row. */
  function Spawn(k: Kind): (p: Piece)
    ensures p.kind == k && p.shape == Canonical(k) && p.color == ColorOf(k) && p.y == 0
    ensures 0 <= p.x && p.x + |p.shape[0]| <= COLS
    ensures p.x == COLS / 2 - |p.shape[0]| / 2
    ensures COLS - 1 <= 2 * p.x + |p.shape[0]| <= COLS + 1
    ensures Placed(p)
  {
    var s := Canonical(k);
    Piece(k, s, ColorOf(k), COLS / 2 - |s[0]| / 2, 0)
  }

  /** On an empty board every kind spawns legally. */
  lemma SpawnLegalOnEmpty(k: Kind)
    ensures Legal(Spawn(k), EmptyBoard())
  {
  }

  function RowCollides(s: Shape, x: int, y: int, b: Board, r: nat, c: nat): (hit: bool)
    requires WellFormed(b) && r < |s| && c <= |s[r]|
    ensures hit <==> exists c' :: c <= c' < |s[r]| && s[r][c'] && !Free(b, x + c', y + r)
    decreases |s[r]| - c
  {
    if c == |s[r]| then false
    else if s[r][c] && !Free(b, x + c, y + r) then true
    else RowCollides(s, x, y, b, r, c + 1)
  }

  function RowsCollide(s: Shape, x: int, y: int, b: Board, r: nat): (hit: bool)
    requires WellFormed(b) && r <= |s|
    ensures hit <==> exists r', c :: r <= r' < |s| && 0 <= c < |s[r']| && s[r'][c] && !Free(b, x + c, y + r')
    decreases |s| - r
  {
    if r == |s| then false
    else RowCollides(s, x, y, b, r, 0) || RowsCollide(s, x, y, b, r + 1)
  }

  /** The row-major scan of `_collides`, which answers exactly `Blocked`. */
  function Collides(s: Shape, x: int, y: int, b: Board): (hit: bool)
    requires WellFormed(b)
    ensures hit <==> Blocked(s, x, y, b)
  {
    RowsCollide(s, x, y, b, 0)
  }

  datatype MoveResult = MoveResult(ok: bool, piece: Piece)

  /** Shift by (dx, dy) if the target is legal; otherwise report rejection and keep the piece. */
  function Move(p: Piece, dx: int, dy: int, b: Board): (m: MoveResult)
    requires WellFormed(b)
    ensures m.ok <==> !Blocked(p.shape, p.x + dx, p.y + dy, b)
    ensures m.ok ==> m.piece == p.(x := p.x + dx, y := p.y + dy)
    ensures !m.ok ==> m.piece == p
  {
    if !Collides(p.shape, p.x + dx, p.y + dy, b) then MoveResult(true, p.(x := p.x + dx, y := p.y + dy))
    else MoveResult(false, p)
  }

  /** Turn a quarter in place if the turned shape is legal there; no wall kicks. */
  function Turn(p: Piece, b: Board): (q: Piece)
    requires WellFormed(b)
    ensures q.x == p.x && q.y == p.y && q.kind == p.kind && q.color == p.color
    ensures !Blocked(Rotate(p.shape), p.x, p.y, b) ==> q.shape == Rotate(p.shape)
    ensures Blocked(Rotate(p.shape), p.x, p.y, b) ==> q == p
  {
    var turned := Rotate(p.shape);
    if !Collides(turned, p.x, p.y, b) then p.(shape := turned) else p
  }

  /** A legal piece stays legal under any move, accepted or not. */
  lemma MoveKeepsLegal(p: Piece, dx: int, dy: int, b: Board)
    requires WellFormed(b) && Legal(p, b)
    ensures Legal(Move(p, dx, dy, b).piece, b)
  {
  }

  /** An accepted move of a legal piece is undone by the opposite move. */
  lemma MoveUndo(p: Piece, dx: int, dy: int, b: Board)
    requires WellFormed(b) && Legal(p, b) && Move(p, dx, dy, b).ok
    ensures Move(Move(p, dx, dy, b).piece, -dx, -dy, b) == MoveResult(true, p)
  {
    var q := Move(p, dx, dy, b).piece;
    assert q.(x := q.x - dx, y := q.y - dy) == p;
  }

  /** A legal piece stays legal when turned, and its shape stays in its kind's orbit. */
  lemma TurnKeepsLegal(p: Piece, b: Board)
    requires WellFormed(b) && Legal(p, b) && InOrbit(p.kind, p.shape)
    ensures Legal(Turn(p, b), b) && InOrbit(p.kind, Turn(p, b).shape)
  {
    RotateStaysInOrbit(p.kind, p.shape);
  }

  function ImprintRow(b: Board, p: Piece, r: nat, c: nat): (nb: Board)
    requires WellFormed(b) && Placed(p) && r < |p.shape| && c <= |p.shape[r]|
    ensures WellFormed(nb)
    ensures forall row, col :: 0 <= row < ROWS && 0 <= col < COLS ==>
      nb[row][col] == (if row == p.y + r && p.x + c <= col < p.x + |p.shape[r]| && p.shape[r][col - p.x]
                       then Some(p.color) else b[row][col])
    decreases |p.shape[r]| - c
  {
    if c == |p.shape[r]| then b
    else
      var b' := if p.shape[r][c] then b[p.y + r := b[p.y + r][p.x + c := Some(p.color)]] else b;
      ImprintRow(b', p, r, c + 1)
  }

  function ImprintRows(b: Board, p: Piece, r: nat): (nb: Board)
    requires WellFormed(b) && Placed(p) && r <= |p.shape|
    ensures WellFormed(nb)
    ensures forall row, col :: 0 <= row < ROWS && 0 <= col < COLS ==>
      nb[row][col] == (if p.y + r <= row && Covers(p, row, col) then Some(p.color) else b[row][col])
    decreases |p.shape| - r
  {
    if r == |p.shape| then b
    else ImprintRows(ImprintRow(b, p, r, 0), p, r + 1)
  }

  /** Writes the piece's colour into exactly the cells it covers; the rest of the board is untouched. */
  function Imprint(b: Board, p: Piece): (nb: Board)
    requires WellFormed(b) && Placed(p)
    ensures WellFormed(nb)
    ensures forall row, col :: 0 <= row < ROWS && 0 <= col < COLS ==>
      nb[row][col] == (if Covers(p, row, col) then Some(p.color) else b[row][col])
  {
    ImprintRows(b, p, 0)
  }

  /** Rows the piece does not reach are unchanged by imprinting. */
  lemma ImprintOutsideRows(b: Board, p: Piece, row: int)
    requires WellFormed(b) && Placed(p) && 0 <= row < ROWS
    requires !(p.y <= row < p.y + |p.shape|)
    ensures Imprint(b, p)[row] == b[row]
  {
    var nb := Imprint(b, p);
    assert forall col :: 0 <= col < COLS ==> nb[row][col] == b[row][col];
  }

  /**
   Imprinting a piece `h` rows tall into a board without full rows leaves at most
   `h` full rows, so a lock can never clear more rows than the piece is tall.
   */
  lemma ImprintFullRows(b: Board, p: Piece)
    requires WellFormed(b) && NoFullRows(b) && Placed(p)
    ensures Count(Imprint(b, p), IsFull) <= |p.shape|
  {
    var nb := Imprint(b, p);
    var lo := if p.y < 0 then 0 else p.y;
    var hi := if p.y + |p.shape| < lo then lo else p.y + |p.shape|;
    forall i | 0 <= i < |nb| && IsFull(nb[i])
      ensures lo <= i < hi
    {
      if !(p.y <= i < p.y + |p.shape|) {
        ImprintOutsideRows(b, p, i);
      }
    }
    CountWindow(nb, IsFull, lo, hi);
  }

  /** Drop one row at a time while the move is accepted (the hard-drop loop). */
  function HardDrop(p: Piece, b: Board): (q: Piece)
    requires WellFormed(b) && HasFilled(p.shape)
    ensures q == p.(y := q.y) && q.y >= p.y
    ensures Blocked(q.shape, q.x, q.y + 1, b)
    decreases ROWS - p.y
  {
    var m := Move(p, 0, 1, b);
    if m.ok then
      var r, c :| 0 <= r < |p.shape| && 0 <= c < |p.shape[r]| && p.shape[r][c];
      assert Free(b, p.x + c, p.y + 1 + r);
      HardDrop(m.piece, b)
    else p
  }

  /** Every row the hard drop passes through, down to where it rests, is free. */
  lemma {:induction false} HardDropPath(p: Piece, b: Board)
    requires WellFormed(b) && HasFilled(p.shape)
    ensures forall y' :: p.y < y' <= HardDrop(p, b).y ==> !Blocked(p.shape, p.x, y', b)
    decreases ROWS - p.y
  {
    var m := Move(p, 0, 1, b);
    if m.ok {
      var r, c :| 0 <= r < |p.shape| && 0 <= c < |p.shape[r]| && p.shape[r][c];
      assert Free(b, p.x + c, p.y + 1 + r);
      HardDropPath(m.piece, b);
      var q := HardDrop(p, b);
      assert q == HardDrop(m.piece, b);
      forall y' | p.y < y' <= q.y
        ensures !Blocked(p.shape, p.x, y', b)
      {
        if y' > p.y + 1 {
          assert m.piece.y < y' <= HardDrop(m.piece, b).y;
        }
      }
    }
  }

  /** A hard drop of a legal piece ends legal. */
  lemma HardDropKeepsLegal(p: Piece, b: Board)
    requires WellFormed(b) && HasFilled(p.shape) && Legal(p, b)
    ensures Legal(HardDrop(p, b), b)
  {
    HardDropPath(p, b);
  }
}

=== FILE: platformer.dfy ===
/**
 The platformer's entities and their per-tick rules: the player's tile
 collision, respawn, coin pickup, enemy contact and round result, and the
 enemy's patrol with its ledge probe (fase1.py lines 72-181).
 */
module Platformer {
  import opened Wrappers
  import opened Seqs
  import opened Rects
  import opened Tiles

  const SCREEN_W: int := 800
  const SCREEN_H: int := 448
  const SPAWN_X: int := TILE
  const SPAWN_Y: int := SCREEN_H - 5 * TILE
  const START_LIVES: int := 3
  /** A contact counts as a stomp when the player's bottom is less than this far below the enemy's top. */
  const STOMP_DEPTH: int := 12
  const COIN_POINTS: int := 100
  const STOMP_POINTS: int := 200
  /** How far the ground probe looks below an enemy, in pixels. */
  const PROBE_DEPTH: int := 2

  /**
   The player's velocities are kept in tenths of a pixel per frame, so the
   source's 4.5, 0.9, -15 and -7.5 are exact integers here.
   */
  const SUBPIXELS: int := 10
  const PLAYER_SPEED: int := 45
  const GRAVITY: int := 9
  const JUMP_VEL: int := -150
  /** Falling speed is capped at 20 pixels per frame. */
  const MAX_FALL: int := 200
  /** The upward speed after a stomp: `JUMP_VEL / 2`, half the jump speed. */
  const BOUNCE: int := -75

  /** `rect` in pixels, `vx` and `vy` in tenths of a pixel per frame. */
  datatype Player = Player(rect: Rect, vx: int, vy: int, onGround: bool, lives: int, score: int)

  /** The keys the player update reads this frame. */
  datatype Keys = Keys(left: bool, right: bool, jump: bool)

  datatype Enemy = Enemy(rect: Rect, vx: int, patrol: int, startX: int, alive: bool)

  /** A player at rest with its top-left at (x, y), three lives and no score. */
  function NewPlayer(x: int, y: int): (p: Player)
    ensures p.rect == Rect(x, y, TILE - 4, TILE - 4)
    ensures p.vx == 0 && p.vy == 0 && !p.onGround
    ensures p.lives == START_LIVES && p.score == 0
  {
    Player(Rect(x, y, TILE - 4, TILE - 4), 0, 0, false, START_LIVES, 0)
  }

  /** An enemy walking right, turning more than two tiles from where it started. */
  function NewEnemy(x: int, y: int): (e: Enemy)
    ensures e.rect == Rect(x, y, TILE - 4, TILE - 4)
    ensures e.alive && e.vx == 1
    ensures e.startX == e.rect.x && e.patrol == 2 * TILE
  {
    Enemy(Rect(x, y, TILE - 4, TILE - 4), 1, 2 * TILE, x, true)
  }

  predicate IsAlive(e: Enemy)
  {
    e.alive
  }

  predicate IsDead(e: Enemy)
  {
    !e.alive
  }

  function Abs(n: int): nat
  {
    if n < 0 then -n else n
  }

  /** Python's `int(v / 10)`: a velocity in tenths truncated toward zero to whole pixels. */
  function Pixels(v: int): (d: int)
    ensures v >= 0 ==> d * SUBPIXELS <= v < (d + 1) * SUBPIXELS
    ensures v < 0 ==> (d - 1) * SUBPIXELS < v <= d * SUBPIXELS
    ensures d == 0 <==> -SUBPIXELS < v < SUBPIXELS
  {
    if v >= 0 then v / SUBPIXELS else -((-v) / SUBPIXELS)
  }

  /**
   The start of `Player.update`: the keys set vx (right wins over left), a
   jump from the ground sets vy, then gravity is added and the fall capped.
   */
  function Steer(p: Player, k: Keys): (q: Player)
    ensures q.rect == p.rect && q.lives == p.lives && q.score == p.score
    ensures q.vx == (if k.right then PLAYER_SPEED else if k.left then -PLAYER_SPEED else 0)
    ensures q.vy <= MAX_FALL
    ensures k.jump && p.onGround ==> q.vy == JUMP_VEL + GRAVITY && !q.onGround
    ensures !(k.jump && p.onGround) ==>
      (q.onGround == p.onGround && (q.vy == p.vy + GRAVITY || (q.vy == MAX_FALL && p.vy + GRAVITY > MAX_FALL)))
  {
    var vx := if k.right then PLAYER_SPEED else if k.left then -PLAYER_SPEED else 0;
    var jumps := k.jump && p.onGround;
    var vy := (if jumps then JUMP_VEL else p.vy) + GRAVITY;
    p.(vx := vx, vy := if vy > MAX_FALL then MAX_FALL else vy, onGround := p.onGround && !jumps)
  }

  /** Without jumping, a player within the fall cap never gains upward speed. */
  lemma RisesOnlyByJumping(p: Player, k: Keys)
    requires p.vy <= MAX_FALL
    ensures Steer(p, k).vy < p.vy ==> k.jump && p.onGround
  {
  }

  /** Back to the start point at rest; lives, score and the ground flag are not touched. */
  function Respawn(p: Player): (q: Player)
    ensures q.rect.x == SPAWN_X && q.rect.y == SPAWN_Y
    ensures q.rect.w == p.rect.w && q.rect.h == p.rect.h
    ensures q.vx == 0 && q.vy == 0
    ensures q.lives == p.lives && q.score == p.score && q.onGround == p.onGround
  {
    p.(rect := p.rect.(x := SPAWN_X, y := SPAWN_Y), vx := 0, vy := 0)
  }

  /**
   `Player.collide`: sweep the map in scan order, clamping on the axes whose
   velocity argument is non-zero. A downward hit zeroes vy and grounds the
   player, an upward hit only zeroes vy.
   */
  function Collide(p: Player, vx: int, vy: int, t: TileMap): (q: Player)
    ensures q.rect.w == p.rect.w && q.rect.h == p.rect.h
    ensures q.vx == p.vx && q.lives == p.lives && q.score == p.score
    ensures !SolidOverlap(t, p.rect) ==> q == p
    ensures vx == 0 ==> q.rect.x == p.rect.x
    ensures vy == 0 ==> q.rect.y == p.rect.y && q.vy == p.vy && q.onGround == p.onGround
    ensures vx > 0 && SolidOverlap(t, p.rect) ==> (q.rect.x < p.rect.x &&
      RightOnSolid(t, q.rect) && (vy == 0 ==> RightAgainst(t, q.rect)))
    ensures vx < 0 && SolidOverlap(t, p.rect) ==> (q.rect.x > p.rect.x &&
      LeftOnSolid(t, q.rect) && (vy == 0 ==> LeftAgainst(t, q.rect)))
    ensures vy > 0 ==> (q.onGround <==> p.onGround || SolidOverlap(t, p.rect))
    ensures vy > 0 && SolidOverlap(t, p.rect) ==> (q.vy == 0 && q.rect.y < p.rect.y &&
      BottomOnSolid(t, q.rect) && (vx == 0 ==> BottomAgainst(t, q.rect)))
    ensures vy < 0 ==> q.onGround == p.onGround
    ensures vy < 0 && SolidOverlap(t, p.rect) ==> (q.vy == 0 && q.rect.y > p.rect.y &&
      TopOnSolid(t, q.rect) && (vx == 0 ==> TopAgainst(t, q.rect)))
  {
    var s := SweepTiles(p.rect, vx, vy, t);
    p.(rect := s.rect,
       vy := if s.hit && vy != 0 then 0 else p.vy,
       onGround := if s.hit && vy > 0 then true else p.onGround)
  }

  /** The rect the ledge probe tests: the enemy after its step, pushed PROBE_DEPTH down. */
  function Probe(e: Enemy): Rect
  {
    e.rect.(x := e.rect.x + e.vx, y := e.rect.y + PROBE_DEPTH)
  }

  /** The probe's sweep, `collide(0, 1)` on the probe rect: it can only push the rect up onto a block. */
  function ProbeSweep(rect: Rect, t: TileMap): (s: Swept)
    ensures s.hit <==> SolidOverlap(t, rect)
    ensures s.rect.x == rect.x && s.rect.w == rect.w && s.rect.h == rect.h
    ensures !s.hit ==> s.rect == rect
    ensures s.hit ==> s.rect.y < rect.y && BottomAgainst(t, s.rect)
  {
    SweepTiles(rect, 0, 1, t)
  }

  /**
   `Enemy.update`: step by vx, turn past the patrol range, then turn again if
   the probe below finds no solid tile. A probe that does find ground clamps
   the rect's bottom to that tile's top before the probe shift is undone.
   */
  function EnemyUpdate(e: Enemy, t: TileMap): (f: Enemy)
    ensures !e.alive ==> f == e
    ensures f.alive == e.alive && f.patrol == e.patrol && f.startX == e.startX
    ensures f.rect.w == e.rect.w && f.rect.h == e.rect.h
    ensures e.alive ==> f.rect.x == e.rect.x + e.vx
    ensures e.alive ==>
      var pastPatrol := Abs(e.rect.x + e.vx - e.startX) > e.patrol;
      f.vx == (if pastPatrol == SolidOverlap(t, Probe(e)) then -e.vx else e.vx)
    ensures (e.vx == 1 || e.vx == -1) ==> (f.vx == 1 || f.vx == -1)
    ensures e.alive && !SolidOverlap(t, Probe(e)) ==> f.rect.y == e.rect.y
    ensures e.alive && SolidOverlap(t, Probe(e)) ==> (f.rect.y < e.rect.y &&
      BottomAgainst(t, f.rect.(y := f.rect.y + PROBE_DEPTH)))
  {
    if !e.alive then e
    else
      var vx1 := if Abs(e.rect.x + e.vx - e.startX) > e.patrol then -e.vx else e.vx;
      var probe := ProbeSweep(Probe(e), t);
      var vx2 := if !probe.hit then -vx1 else vx1;
      var f := e.(rect := probe.rect.(y := probe.rect.y - PROBE_DEPTH), vx := vx2);
      assert f.rect.(y := f.rect.y + PROBE_DEPTH) == probe.rect;
      f
  }

  /** Enemies keep a unit speed forever: vx starts at 1 and only ever flips. */
  lemma {:induction false} EnemySpeedStaysUnit(e: Enemy, t: TileMap, n: nat)
    requires e.vx == 1 || e.vx == -1
    ensures var f := EnemySteps(e, t, n); f.vx == 1 || f.vx == -1
    decreases n
  {
    if n > 0 {
      EnemySpeedStaysUnit(EnemyUpdate(e, t), t, n - 1);
    }
  }

  function EnemySteps(e: Enemy, t: TileMap, n: nat): Enemy
    decreases n
  {
    if n == 0 then e else EnemySteps(EnemyUpdate(e, t), t, n - 1)
  }

  /** `list.remove`: drop the first element equal to `x`. */
  function RemoveFirst<T(==)>(s: seq<T>, x: T): (r: seq<T>)
    requires x in s
    ensures |r| == |s| - 1
  {
    if s[0] == x then s[1..] else [s[0]] + RemoveFirst(s[1..], x)
  }

  lemma {:induction false} RemoveFirstAt<T>(a: seq<T>, x: T, b: seq<T>)
    requires x !in a
    ensures RemoveFirst(a + [x] + b, x) == a + b
  {
    if |a| > 0 {
      assert (a + [x] + b)[1..] == a[1..] + [x] + b;
      RemoveFirstAt(a[1..], x, b);
    }
  }

  /** The coins the rect does not touch. */
  function Misses(rect: Rect): Rect -> bool
  {
    c => !Overlaps(rect, c)
  }

  datatype Collected = Collected(coins: seq<Rect>, score: int)

  /**
   The coin loop from position `i` on: walk a copy of the list and remove each
   touched coin from the live list, 100 points apiece.
   */
  function CollectFrom(rect: Rect, copy: seq<Rect>, i: nat, live: seq<Rect>, score: int): (res: Collected)
    requires i <= |copy|
    requires live == Filter(copy[..i], Misses(rect)) + copy[i..]
    ensures res.coins == Filter(copy, Misses(rect))
    ensures res.score == score + COIN_POINTS * (|live| - |res.coins|)
    decreases |copy| - i
  {
    if i == |copy| then
      assert copy[..i] == copy;
      Collected(live, score)
    else
      var coin := copy[i];
      var done := Filter(copy[..i], Misses(rect));
      assert copy[..i + 1] == copy[..i] + [coin];
      FilterAppend(copy[..i], [coin], Misses(rect));
      assert live == done + [coin] + copy[i + 1..];
      if Overlaps(rect, coin) then
        RemoveFirstAt(done, coin, copy[i + 1..]);
        CollectFrom(rect, copy, i + 1, RemoveFirst(live, coin), score + COIN_POINTS)
      else
        CollectFrom(rect, copy, i + 1, live, score)
  }

  /** Coin pickup: exactly the touched coins go, the rest stay in order, 100 points each. */
  function CollectCoins(rect: Rect, coins: seq<Rect>, score: int): (res: Collected)
    ensures res.coins == Filter(coins, Misses(rect))
    ensures res.score == score + COIN_POINTS * (|coins| - |res.coins|)
  {
    CollectFrom(rect, coins, 0, coins, score)
  }

  /** A falling player whose bottom is less than STOMP_DEPTH below the enemy's top lands on it. */
  predicate Stomps(p: Player, e: Enemy)
  {
    p.vy > 0 && p.rect.Bottom() - e.rect.y < STOMP_DEPTH
  }

  datatype Contact = Contact(player: Player, enemies: seq<Enemy>)

  /**
   The enemy-contact loop: a stomp kills the enemy, bounces the player and
   scores 200; any other touch costs one life, respawns the player and ends
   the loop. The player's rect does not move until that first hit.
   */
  function ContactScan(p: Player, es: seq<Enemy>): (c: Contact)
    ensures |c.enemies| == |es|
    ensures c.player.lives == p.lives || c.player.lives == p.lives - 1
    ensures c.player.lives == p.lives - 1 ==>
      c.player == Respawn(p).(lives := p.lives - 1, score := c.player.score)
    ensures c.player.lives == p.lives ==>
      c.player == p.(vy := c.player.vy, score := c.player.score)
    ensures (forall i :: 0 <= i < |es| ==> es[i].alive) ==>
      c.player.score == p.score + STOMP_POINTS * Count(c.enemies, IsDead)
    decreases |es|
  {
    if |es| == 0 then Contact(p, es)
    else
      var e := es[0];
      assert forall i :: 1 <= i < |es| ==> es[1..][i - 1] == es[i];
      if Overlaps(p.rect, e.rect) then
        if Stomps(p, e) then
          var rest := ContactScan(p.(vy := BOUNCE, score := p.score + STOMP_POINTS), es[1..]);
          Contact(rest.player, [e.(alive := false)] + rest.enemies)
        else
          var q := Respawn(p.(lives := p.lives - 1));
          NoneDeadCount(es);
          Contact(q, es)
      else
        var rest := ContactScan(p, es[1..]);
        Contact(rest.player, [e] + rest.enemies)
  }

  lemma {:induction false} NoneDeadCount(es: seq<Enemy>)
    ensures (forall i :: 0 <= i < |es| ==> es[i].alive) ==> Count(es, IsDead) == 0
  {
    if |es| > 0 {
      NoneDeadCount(es[1..]);
    }
  }

  /** One tick kills at most one enemy: after a stomp the player is moving up. */
  lemma {:induction false} AtMostOneStomp(p: Player, es: seq<Enemy>)
    requires forall i :: 0 <= i < |es| ==> es[i].alive
    ensures Count(ContactScan(p, es).enemies, IsDead) <= 1
  {
    if |es| > 0 {
      var e := es[0];
      if Overlaps(p.rect, e.rect) && Stomps(p, e) {
        var p' := p.(vy := BOUNCE, score := p.score + STOMP_POINTS);
        var rest := ContactScan(p', es[1..]);
        NoStompWhenRising(p', es[1..]);
        CountCons(e.(alive := false), rest.enemies, IsDead);
      } else if Overlaps(p.rect, e.rect) {
        NoneDeadCount(es);
      } else {
        var rest := ContactScan(p, es[1..]);
        AtMostOneStomp(p, es[1..]);
        CountCons(e, rest.enemies, IsDead);
      }
    }
  }

  lemma {:induction false} NoStompWhenRising(p: Player, es: seq<Enemy>)
    requires p.vy <= 0
    requires forall i :: 0 <= i < |es| ==> es[i].alive
    ensures Count(ContactScan(p, es).enemies, IsDead) == 0
  {
    if |es| > 0 {
      var e := es[0];
      if Overlaps(p.rect, e.rect) {
        NoneDeadCount(es);
      } else {
        var rest := ContactScan(p, es[1..]);
        NoStompWhenRising(p, es[1..]);
        CountCons(e, rest.enemies, IsDead);
      }
    }
  }

  /** The position of the first enemy whose rect overlaps `rect`, or |es| when none does. */
  function FirstTouch(rect: Rect, es: seq<Enemy>): (j: nat)
    ensures j <= |es|
    ensures j < |es| ==> Overlaps(rect, es[j].rect)
    ensures forall i :: 0 <= i < j ==> !Overlaps(rect, es[i].rect)
    decreases |es|
  {
    if |es| == 0 then 0
    else if Overlaps(rect, es[0].rect) then 0
    else 1 + FirstTouch(rect, es[1..])
  }

  /** Touching no enemy changes nothing. */
  lemma {:induction false} ContactUntouched(p: Player, es: seq<Enemy>)
    requires FirstTouch(p.rect, es) == |es|
    ensures ContactScan(p, es) == Contact(p, es)
    decreases |es|
  {
    if |es| > 0 {
      assert !Overlaps(p.rect, es[0].rect);
      ContactUntouched(p, es[1..]);
      var rest := ContactScan(p, es[1..]);
      assert ContactScan(p, es) == Contact(rest.player, [es[0]] + rest.enemies);
      assert [es[0]] + es[1..] == es;
    }
  }

  /** A first touch that is not a stomp costs one life, respawns the player and changes no enemy. */
  lemma {:induction false} ContactHit(p: Player, es: seq<Enemy>)
    requires FirstTouch(p.rect, es) < |es| && !Stomps(p, es[FirstTouch(p.rect, es)])
    ensures ContactScan(p, es) == Contact(Respawn(p).(lives := p.lives - 1), es)
    decreases |es|
  {
    if !Overlaps(p.rect, es[0].rect) {
      assert es[1..][FirstTouch(p.rect, es[1..])] == es[FirstTouch(p.rect, es)];
      ContactHit(p, es[1..]);
      var rest := ContactScan(p, es[1..]);
      assert ContactScan(p, es) == Contact(rest.player, [es[0]] + rest.enemies);
      assert [es[0]] + es[1..] == es;
    }
  }

  /**
   A first touch that is a stomp kills exactly that enemy and bounces the
   player; a further touch after the bounce is a hit.
   */
  lemma {:induction false} ContactStomp(p: Player, es: seq<Enemy>)
    requires FirstTouch(p.rect, es) < |es| && Stomps(p, es[FirstTouch(p.rect, es)])
    ensures var j := FirstTouch(p.rect, es);
      var bounced := p.(vy := BOUNCE, score := p.score + STOMP_POINTS);
      var k := j + 1 + FirstTouch(p.rect, es[j + 1..]);
      && ContactScan(p, es).enemies == es[j := es[j].(alive := false)]
      && ContactScan(p, es).player == (if k < |es| then Respawn(bounced).(lives := p.lives - 1) else bounced)
    decreases |es|
  {
    var e := es[0];
    if Overlaps(p.rect, e.rect) {
      StompFirst(p, es);
    } else {
      var j := FirstTouch(p.rect, es);
      var rest := ContactScan(p, es[1..]);
      assert ContactScan(p, es) == Contact(rest.player, [e] + rest.enemies);
      assert j == 1 + FirstTouch(p.rect, es[1..]);
      assert es[1..][j - 1] == es[j];
      ContactStomp(p, es[1..]);
      UpdateBehindHead(es, j, es[j].(alive := false));
    }
  }

  /** `ContactStomp` when the stomped enemy is the first in the list. */
  lemma {:induction false} StompFirst(p: Player, es: seq<Enemy>)
    requires |es| > 0 && Overlaps(p.rect, es[0].rect) && Stomps(p, es[0])
    ensures var bounced := p.(vy := BOUNCE, score := p.score + STOMP_POINTS);
      var k := 1 + FirstTouch(p.rect, es[1..]);
      && ContactScan(p, es).enemies == es[0 := es[0].(alive := false)]
      && ContactScan(p, es).player == (if k < |es| then Respawn(bounced).(lives := p.lives - 1) else bounced)
  {
    var e := es[0];
    var bounced := p.(vy := BOUNCE, score := p.score + STOMP_POINTS);
    var rest := ContactScan(bounced, es[1..]);
    assert ContactScan(p, es) == Contact(rest.player, [e.(alive := false)] + rest.enemies);
    if FirstTouch(p.rect, es[1..]) < |es| - 1 {
      ContactHit(bounced, es[1..]);
    } else {
      ContactUntouched(bounced, es[1..]);
    }
    assert es[0 := e.(alive := false)] == [e.(alive := false)] + es[1..];
  }

  /** Meeting the enemies only ever kills some of them; none is otherwise changed. */
  lemma {:induction false} ContactKeepsOrKills(p: Player, es: seq<Enemy>)
    ensures forall i :: 0 <= i < |es| ==>
      ContactScan(p, es).enemies[i] == es[i] || ContactScan(p, es).enemies[i] == es[i].(alive := false)
  {
    var j := FirstTouch(p.rect, es);
    if j == |es| {
      ContactUntouched(p, es);
    } else if Stomps(p, es[j]) {
      ContactStomp(p, es);
    } else {
      ContactHit(p, es);
    }
  }

  /** The two sides of the contact rule for a single touching enemy. */
  lemma StompOrHit(p: Player, e: Enemy)
    requires Overlaps(p.rect, e.rect)
    ensures Stomps(p, e) ==>
      ContactScan(p, [e]) == Contact(p.(vy := BOUNCE, score := p.score + STOMP_POINTS), [e.(alive := false)])
    ensures !Stomps(p, e) ==>
      ContactScan(p, [e]) == Contact(Respawn(p).(lives := p.lives - 1), [e])
  {
    assert [e][1..] == [];
  }

  datatype Outcome = Win | Dead | Continue

  /** Result of one player update: the player, the coins and enemies left, and the round outcome. */
  datatype Step = Step(player: Player, coins: seq<Rect>, enemies: seq<Enemy>, outcome: Outcome)

  /**
   The player after both movement passes: step x by the whole pixels of vx
   and clamp horizontally, then step y by the whole pixels of vy, clear the
   ground flag and clamp vertically. The clamps go by the sign of the
   velocity, not of the whole-pixel step, so a sub-pixel speed clamps without
   moving.
   */
  function Moved(p: Player, t: TileMap): (q: Player)
    ensures q.vx == p.vx && q.lives == p.lives && q.score == p.score
    ensures q.rect.w == p.rect.w && q.rect.h == p.rect.h
    // the horizontal pass: step to `h`, clamp against a block when it overlaps one
    ensures var h := p.rect.(x := p.rect.x + Pixels(p.vx));
      && (!SolidOverlap(t, h) || p.vx == 0 ==> q.rect.x == h.x)
      && (p.vx > 0 && SolidOverlap(t, h) ==> q.rect.x < h.x && RightAgainst(t, h.(x := q.rect.x)))
      && (p.vx < 0 && SolidOverlap(t, h) ==> q.rect.x > h.x && LeftAgainst(t, h.(x := q.rect.x)))
    // the vertical pass from the clamped x: step to `v`, clamp and stop on a hit
    ensures var v := p.rect.(x := q.rect.x, y := p.rect.y + Pixels(p.vy));
      && (!SolidOverlap(t, v) || p.vy == 0 ==> q.rect == v && q.vy == p.vy)
      && (p.vy > 0 && SolidOverlap(t, v) ==> q.vy == 0 && q.rect.y < v.y && BottomAgainst(t, q.rect))
      && (p.vy < 0 && SolidOverlap(t, v) ==> q.vy == 0 && q.rect.y > v.y && TopAgainst(t, q.rect))
    ensures q.onGround <==> (p.vy > 0 &&
      SolidOverlap(t, p.rect.(x := q.rect.x, y := p.rect.y + Pixels(p.vy))))
    ensures p.vy <= 0 ==> !q.onGround
  {
    var h := p.rect.(x := p.rect.x + Pixels(p.vx));
    var p1 := Collide(p.(rect := h), p.vx, 0, t);
    assert p1.rect == h.(x := p1.rect.x) && p1.vy == p.vy;
    var v := p1.rect.(y := p1.rect.y + Pixels(p1.vy));
    var q := Collide(p1.(rect := v, onGround := false), 0, p1.vy, t);
    assert v == p.rect.(x := q.rect.x, y := p.rect.y + Pixels(p.vy));
    q
  }

  /**
   The rest of `Player.update` once the player has moved: pick up coins, meet
   the enemies, and report the outcome (touching the flag wins even with no
   lives left).
   */
  function Meet(m: Player, coins: seq<Rect>, es: seq<Enemy>, flag: Option<Rect>): (s: Step)
    ensures s.outcome == Win <==> flag.Some? && Overlaps(s.player.rect, flag.value)
    ensures s.outcome == Dead <==> s.outcome != Win && s.player.lives <= 0
    ensures s.coins == Filter(coins, Misses(m.rect))
    ensures var c := ContactScan(m.(score := m.score + COIN_POINTS * (|coins| - |s.coins|)), es);
      s.player == c.player && s.enemies == c.enemies
  {
    var got := CollectCoins(m.rect, coins, m.score);
    var c := ContactScan(m.(score := got.score), es);
    var outcome :=
      if flag.Some? && Overlaps(c.player.rect, flag.value) then Win
      else if c.player.lives <= 0 then Dead
      else Continue;
    Step(c.player, got.coins, c.enemies, outcome)
  }

  /** `Player.update`: steer from the keys, move and collide on both axes, then meet coins and enemies. */
  function PlayerUpdate(p: Player, k: Keys, t: TileMap, coins: seq<Rect>, es: seq<Enemy>,
                        flag: Option<Rect>): (s: Step)
    ensures s == Meet(Moved(Steer(p, k), t), coins, es, flag)
    ensures s.outcome == Win <==> flag.Some? && Overlaps(s.player.rect, flag.value)
    ensures s.outcome == Dead <==> s.outcome != Win && s.player.lives <= 0
    ensures s.player.rect.w == p.rect.w && s.player.rect.h == p.rect.h
    ensures s.player.lives == p.lives || s.player.lives == p.lives - 1
    ensures s.coins == Filter(coins, Misses(Moved(Steer(p, k), t).rect))
    ensures (forall i :: 0 <= i < |es| ==> es[i].alive) ==>
      s.player.score == p.score + COIN_POINTS * (|coins| - |s.coins|) + STOMP_POINTS * Count(s.enemies, IsDead)
    ensures |s.enemies| == |es|
  {
    Meet(Moved(Steer(p, k), t), coins, es, flag)
  }

  /**
   Where the player ends a frame: at the moved position when no life was
   lost, and at the spawn point at rest when one was.
   */
  lemma {:induction false} PlayerUpdateEnds(p: Player, k: Keys, t: TileMap, coins: seq<Rect>, es: seq<Enemy>,
                                            flag: Option<Rect>)
    ensures var s := PlayerUpdate(p, k, t, coins, es, flag);
      var m := Moved(Steer(p, k), t);
      && (s.player.lives == p.lives ==> s.player.rect == m.rect && s.player.onGround == m.onGround)
      && (s.player.lives == p.lives - 1 ==> s.player == Respawn(m).(lives := p.lives - 1, score := s.player.score))
  {
  }
}

=== FILE: rects.dfy ===
/** Integer rectangles with pygame's Rect edge setters and strict-overlap test. */
module Rects {

  datatype Rect = Rect(x: int, y: int, w: int, h: int)
  {
    function Right(): int { x + w }
    function Bottom(): int { y + h }

    /** `rect.right = v`: moves x, keeps the size. */
    function WithRight(v: int): (r: Rect)
      ensures r.Right() == v && r.y == y && r.w == w && r.h == h
    {
      this.(x := v - w)
    }

    /** `rect.bottom = v`: moves y, keeps the size. */
    function WithBottom(v: int): (r: Rect)
      ensures r.Bottom() == v && r.x == x && r.w == w && r.h == h
    {
      this.(y := v - h)
    }
  }

  /**
   pygame's colliderect: the interiors intersect, so rects that only share an
   edge do not collide, and an empty rect collides with nothing.
   */
  predicate Overlaps(a: Rect, b: Rect)
  {
    && a.w > 0 && a.h > 0 && b.w > 0 && b.h > 0
    && a.x < b.Right() && b.x < a.Right()
    && a.y < b.Bottom() && b.y < a.Bottom()
  }
}

=== FILE: seqs.dfy ===
/**
 Sequence helpers shared by both games: the order-preserving filter that the
 source writes as a list comprehension or as "remove while iterating a copy",
 the matching counter, and a map.
 */
module Seqs {

  /** Number of elements of `s` that satisfy `p`. */
  function Count<T>(s: seq<T>, p: T -> bool): (n: nat)
    ensures n <= |s|
  {
    if |s| == 0 then 0 else (if p(s[0]) then 1 else 0) + Count(s[1..], p)
  }

  /** Counting over a sequence with one element in front. */
  lemma CountCons<T>(x: T, s: seq<T>, p: T -> bool)
    ensures Count([x] + s, p) == (if p(x) then 1 else 0) + Count(s, p)
  {
    assert ([x] + s)[1..] == s;
  }

  /** Replacing an element behind a fixed head leaves the head in place. */
  lemma UpdateBehindHead<T>(s: seq<T>, j: nat, x: T)
    requires 0 < j < |s|
    ensures s[j := x] == [s[0]] + s[1..][j - 1 := x]
    ensures s[1..][j..] == s[j + 1..]
  {
  }

  /** The elements of `s` that satisfy `keep`, in their original order. */
  function Filter<T>(s: seq<T>, keep: T -> bool): (r: seq<T>)
    ensures |r| == Count(s, keep)
    ensures forall i :: 0 <= i < |r| ==> keep(r[i])
  {
    if |s| == 0 then []
    else if keep(s[0]) then [s[0]] + Filter(s[1..], keep)
    else Filter(s[1..], keep)
  }

  /** The filter keeps exactly the elements of `s` that satisfy `keep`. */
  lemma {:induction false} FilterMembers<T>(s: seq<T>, keep: T -> bool)
    ensures forall x :: x in Filter(s, keep) <==> x in s && keep(x)
  {
    if |s| > 0 {
      FilterMembers(s[1..], keep);
      assert s == [s[0]] + s[1..];
    }
  }

  /** Every element the filter keeps comes from `s`. */
  lemma FilterFrom<T>(s: seq<T>, keep: T -> bool)
    ensures forall j :: 0 <= j < |Filter(s, keep)| ==> Filter(s, keep)[j] in s
  {
    FilterMembers(s, keep);
    var f := Filter(s, keep);
    assert forall j :: 0 <= j < |f| ==> f[j] in f;
  }

  function Map<T, U>(s: seq<T>, f: T -> U): (r: seq<U>)
    ensures |r| == |s|
    ensures forall i :: 0 <= i < |s| ==> r[i] == f(s[i])
  {
    if |s| == 0 then [] else [f(s[0])] + Map(s[1..], f)
  }

  /** Filtering distributes over concatenation: relative order is kept. */
  lemma {:induction false} FilterAppend<T>(a: seq<T>, b: seq<T>, keep: T -> bool)
    ensures Filter(a + b, keep) == Filter(a, keep) + Filter(b, keep)
  {
    if |a| == 0 {
      assert a + b == b;
    } else {
      assert (a + b)[1..] == a[1..] + b;
      FilterAppend(a[1..], b, keep);
    }
  }

  /** A filter that rejects nothing is the identity. */
  lemma {:induction false} FilterKeepsAll<T>(s: seq<T>, keep: T -> bool)
    requires forall i :: 0 <= i < |s| ==> keep(s[i])
    ensures Filter(s, keep) == s
  {
    if |s| > 0 {
      FilterKeepsAll(s[1..], keep);
    }
  }

  /** Counting a predicate and its complement accounts for every element. */
  lemma {:induction false} CountSplit<T>(s: seq<T>, p: T -> bool, q: T -> bool)
    requires forall i :: 0 <= i < |s| ==> p(s[i]) != q(s[i])
    ensures Count(s, p) + Count(s, q) == |s|
  {
    if |s| > 0 {
      CountSplit(s[1..], p, q);
    }
  }

  /** If every match sits at an index in [lo, hi), there are at most hi - lo matches. */
  lemma {:induction false} CountWindow<T>(s: seq<T>, p: T -> bool, lo: int, hi: int)
    requires 0 <= lo <= hi
    requires forall i :: 0 <= i < |s| && p(s[i]) ==> lo <= i < hi
    ensures Count(s, p) <= hi - lo
  {
    if |s| > 0 {
      var lo' := if lo > 0 then lo - 1 else 0;
      var hi' := if hi > 0 then hi - 1 else 0;
      forall i | 0 <= i < |s[1..]| && p(s[1..][i])
        ensures lo' <= i < hi'
      {
        assert s[1..][i] == s[i + 1];
      }
      CountWindow(s[1..], p, lo', hi');
    }
  }

  lemma {:induction false} MapAppend<T, U>(a: seq<T>, b: seq<T>, f: T -> U)
    ensures Map(a + b, f) == Map(a, f) + Map(b, f)
  {
    if |a| > 0 {
      assert (a + b)[1..] == a[1..] + b;
      MapAppend(a[1..], b, f);
    } else {
      assert a + b == b;
    }
  }

  /**
   Mapping and filtering commute when the map does not change what the
   filter looks at.
   */
  lemma {:induction false} MapFilterCommute<T>(s: seq<T>, f: T -> T, keep: T -> bool)
    requires forall i :: 0 <= i < |s| ==> keep(f(s[i])) == keep(s[i])
    ensures Filter(Map(s, f), keep) == Map(Filter(s, keep), f)
  {
    if |s| > 0 {
      MapFilterCommute(s[1..], f, keep);
    }
  }
}

=== FILE: tetris.dfy ===
/**
 The falling-block game state and its transitions: locking a piece, the
 gravity tick with its score-driven level and delay, key handling, restart
 and the high-score rule (tetris.py lines 55-132).
 */
module Tetris {
  import opened Seqs
  import opened Tetromino
  import opened Board
  import opened Pieces

  /** Points for clearing 0, 1, 2, 3 or 4 rows with one lock. */
  const SCORE_TABLE: seq<nat> := [0, 100, 300, 500, 800]
  const BASE_DELAY: int := 500

  datatype Game = Game(
    board: Board,
    piece: Piece,
    next: Piece,
    score: nat,
    lines: nat,
    level: int,
    gameover: bool,
    paused: bool,
    record: nat)

  datatype Key = Left | Right | Down | Up | Space | Other

  /** The piece has its kind's colour and one of its kind's four rotation states. */
  ghost predicate PieceOk(p: Piece)
  {
    p.color == ColorOf(p.kind) && InOrbit(p.kind, p.shape)
  }

  /**
   What every reachable game state satisfies: a ROWS x COLS board without full
   rows, a well-formed current piece that is legal while the game runs, and a
   freshly spawned next piece.
   */
  ghost predicate Inv(g: Game)
  {
    && WellFormed(g.board)
    && NoFullRows(g.board)
    && PieceOk(g.piece)
    && g.next == Spawn(g.next.kind)
    && (!g.gameover ==> Legal(g.piece, g.board))
  }

  lemma SpawnOk(k: Kind)
    ensures PieceOk(Spawn(k))
  {
    CanonicalOk(k);
  }

  /** The board after locking `p`: the piece imprinted, then its full rows cleared. */
  ghost function Settled(b: Board, p: Piece): Board
    requires WellFormed(b) && Placed(p)
  {
    ClearLines(Imprint(b, p)).board
  }

  /** The stored record after a game ends: the larger of the old record and the score. */
  function SaveRecord(record: nat, score: nat): (r: nat)
    ensures r >= record && r >= score
    ensures r == record || r == score
  {
    if score > record then score else record
  }

  /** One level per thousand points, starting at 1. */
  function Level(score: nat): (l: int)
    ensures l >= 1
    ensures (l - 1) * 1000 <= score < l * 1000
  {
    score / 1000 + 1
  }

  /** Milliseconds between gravity ticks: 50 less per level, never below 100. */
  function Delay(level: int): (d: int)
    ensures d >= 100
    ensures level >= 1 ==> d <= BASE_DELAY
    ensures d == 100 <==> level >= 9
  {
    var slowed := BASE_DELAY - (level - 1) * 50;
    if slowed > 100 then slowed else 100
  }

  /** A higher score never slows the game down. */
  lemma DelayNonIncreasing(s1: nat, s2: nat)
    requires s1 <= s2
    ensures Level(s1) <= Level(s2)
    ensures Delay(Level(s2)) <= Delay(Level(s1))
  {
  }

  /**
   Imprint, clear, score from the table, promote the next piece, and end the
   game when the promoted piece cannot stand at its spawn position.
   */
  function LockPiece(g: Game, k: Kind): (r: Game)
    requires WellFormed(g.board) && NoFullRows(g.board)
    requires Placed(g.piece) && |g.piece.shape| <= 4
    ensures var cleared := Count(Imprint(g.board, g.piece), IsFull);
      && cleared <= 4
      && r.score == g.score + SCORE_TABLE[cleared]
      && r.lines == g.lines + cleared
    ensures WellFormed(r.board) && NoFullRows(r.board)
    ensures r.board == Settled(g.board, g.piece)
    ensures r.piece == g.next && r.next == Spawn(k)
    ensures r.gameover <==> g.gameover || Blocked(g.next.shape, g.next.x, g.next.y, r.board)
    ensures r.record == (if Blocked(g.next.shape, g.next.x, g.next.y, r.board) then SaveRecord(g.record, r.score) else g.record)
    ensures r.level == g.level && r.paused == g.paused
  {
    var imprinted := Imprint(g.board, g.piece);
    ImprintFullRows(g.board, g.piece);
    var c := ClearLines(imprinted);
    var g1 := g.(board := c.board);
    var g2 := if c.count > 0 then g1.(lines := g1.lines + c.count, score := g1.score + SCORE_TABLE[c.count]) else g1;
    var g3 := g2.(piece := g2.next, next := Spawn(k));
    if Collides(g3.piece.shape, g3.piece.x, g3.piece.y, g3.board) then
      g3.(gameover := true, record := SaveRecord(g3.record, g3.score))
    else g3
  }

  /**
   Try to move the piece one row down; if the board blocks it, lock it.
   Shared by the gravity tick and the Down key.
   */
  function Fall(g: Game, k: Kind): (r: Game)
    requires Inv(g) && !g.gameover
    ensures Inv(r)
    ensures !Blocked(g.piece.shape, g.piece.x, g.piece.y + 1, g.board) ==>
      r == g.(piece := g.piece.(y := g.piece.y + 1))
    ensures Blocked(g.piece.shape, g.piece.x, g.piece.y + 1, g.board) ==>
      (LegalIsPlaced(g.piece, g.board); InOrbitOk(g.piece.kind, g.piece.shape); r == LockPiece(g, k))
    ensures Blocked(g.piece.shape, g.piece.x, g.piece.y + 1, g.board) ==> r.piece == g.next && r.next.kind == k
    ensures r.score >= g.score && r.lines >= g.lines
  {
    var m := Move(g.piece, 0, 1, g.board);
    if m.ok then
      MoveKeepsLegal(g.piece, 0, 1, g.board);
      Relocated(g, m.piece);
      g.(piece := m.piece)
    else
      LockKeepsInv(g, k);
      LockPiece(g, k)
  }

  /** The space key: drop the piece as far as it goes and lock it there. */
  function Drop(g: Game, k: Kind): (r: Game)
    requires Inv(g) && !g.gameover
    ensures Inv(r)
    ensures (InOrbitOk(g.piece.kind, g.piece.shape);
      var q := HardDrop(g.piece, g.board);
      && Placed(q)
      && r.board == Settled(g.board, q)
      && r == LockPiece(g.(piece := q), k))
    ensures r.piece == g.next && r.next.kind == k
    ensures r.score >= g.score && r.lines >= g.lines
  {
    InOrbitOk(g.piece.kind, g.piece.shape);
    var dropped := HardDrop(g.piece, g.board);
    HardDropKeepsLegal(g.piece, g.board);
    Relocated(g, dropped);
    var g1 := g.(piece := dropped);
    LockKeepsInv(g1, k);
    LockPiece(g1, k)
  }

  /** One gravity step: fall one row or lock, then recompute the level from the score. */
  function Tick(g: Game, k: Kind): (r: Game)
    requires Inv(g)
    ensures Inv(r)
    ensures r.level == Level(r.score)
    ensures g.paused || g.gameover ==> r == g.(level := Level(g.score))
    ensures !g.paused && !g.gameover ==> r == Fall(g, k).(level := r.level)
    ensures r.score >= g.score && r.lines >= g.lines
  {
    if g.paused || g.gameover then g.(level := Level(g.score))
    else
      var f := Fall(g, k);
      f.(level := Level(f.score))
  }

  /** A running tick either moves the piece one row down on the same board or locks it and promotes the next piece. */
  lemma {:induction false} TickFallsOrLocks(g: Game, k: Kind)
    requires Inv(g) && !g.paused && !g.gameover
    ensures !Blocked(g.piece.shape, g.piece.x, g.piece.y + 1, g.board) ==>
      Tick(g, k).piece == g.piece.(y := g.piece.y + 1) && Tick(g, k).board == g.board
    ensures Blocked(g.piece.shape, g.piece.x, g.piece.y + 1, g.board) ==>
      Placed(g.piece) && Tick(g, k).board == Settled(g.board, g.piece) && Tick(g, k).piece == g.next
  {
    var f := Fall(g, k);
    assert Tick(g, k) == f.(level := Level(f.score));
  }

  /** A key press; ignored once the game is over. */
  function KeyPressed(g: Game, key: Key, k: Kind): (r: Game)
    requires Inv(g)
    ensures Inv(r)
    ensures g.gameover ==> r == g
    ensures key == Left ==> r == g.(piece := Move(g.piece, -1, 0, g.board).piece) || g.gameover
    ensures key == Right ==> r == g.(piece := Move(g.piece, 1, 0, g.board).piece) || g.gameover
    ensures key == Up ==> r == g.(piece := Turn(g.piece, g.board)) || g.gameover
    ensures key == Down && !g.gameover ==> r == Fall(g, k)
    ensures key == Space && !g.gameover ==> r == Drop(g, k)
    ensures key == Other ==> r == g
    ensures r.score >= g.score && r.lines >= g.lines
  {
    if g.gameover then g
    else
      match key
      case Left =>
        MoveKeepsLegal(g.piece, -1, 0, g.board);
        g.(piece := Move(g.piece, -1, 0, g.board).piece)
      case Right =>
        MoveKeepsLegal(g.piece, 1, 0, g.board);
        g.(piece := Move(g.piece, 1, 0, g.board).piece)
      case Down => Fall(g, k)
      case Up =>
        TurnKeepsLegal(g.piece, g.board);
        g.(piece := Turn(g.piece, g.board))
      case Space => Drop(g, k)
      case Other => g
  }

  /** A fresh game that keeps the stored record. */
  function Restart(g: Game, first: Kind, second: Kind): (r: Game)
    ensures Inv(r)
    ensures r.score == 0 && r.lines == 0 && r.level == 1 && !r.gameover
    ensures r.record == g.record && r.paused == g.paused
    ensures r.board == EmptyBoard()
    ensures r.piece == Spawn(first) && r.next == Spawn(second)
  {
    SpawnOk(first);
    SpawnLegalOnEmpty(first);
    g.(board := EmptyBoard(), piece := Spawn(first), next := Spawn(second),
       score := 0, lines := 0, level := 1, gameover := false)
  }

  /** Moving the current piece to another legal position keeps the invariant. */
  lemma Relocated(g: Game, q: Piece)
    requires Inv(g) && !g.gameover
    requires q.kind == g.piece.kind && q.shape == g.piece.shape && q.color == g.piece.color
    requires Legal(q, g.board)
    ensures Inv(g.(piece := q))
  {
  }

  /** Locking preserves the invariant. */
  lemma LockKeepsInv(g: Game, k: Kind)
    requires Inv(g) && !g.gameover
    ensures Placed(g.piece) && |g.piece.shape| <= 4
    ensures Inv(LockPiece(g, k))
  {
    InOrbitOk(g.piece.kind, g.piece.shape);
    LegalIsPlaced(g.piece, g.board);
    SpawnOk(k);
    SpawnOk(g.next.kind);
  }
}

=== FILE: tetromino.dfy ===
/**
 The seven tetromino kinds, their canonical occupancy matrices and colours
 (tetris.py lines 10-20), and the rotation orbit every live shape stays in.
 */
module Tetromino {
  import opened Matrix

  datatype Kind = I | J | L | O | S | T | Z

  /** The colours of the source's COLORS table, one per kind. */
  datatype Color = Cyan | Blue | Orange | Yellow | Green | Purple | Red

  /** An occupancy matrix; the source stores 0/1 and only tests truthiness. */
  type Shape = seq<seq<bool>>

  /** The kind's spawn matrix: at most two rows, with I as the one straight row and O as the only square. */
  function Canonical(k: Kind): (s: Shape)
    ensures 1 <= |s| <= 2 && 2 <= |s[0]| <= 4 && IsRect(s, |s|, |s[0]|)
    ensures k == I <==> |s| == 1
    ensures k == O <==> |s| == 2 && |s[0]| == 2
  {
    match k
    case I => [[true, true, true, true]]
    case J => [[true, false, false], [true, true, true]]
    case L => [[false, false, true], [true, true, true]]
    case O => [[true, true], [true, true]]
    case S => [[false, true, true], [true, true, false]]
    case T => [[false, true, false], [true, true, true]]
    case Z => [[true, true, false], [false, true, true]]
  }

  function ColorOf(k: Kind): Color
  {
    match k
    case I => Cyan
    case J => Blue
    case L => Orange
    case O => Yellow
    case S => Green
    case T => Purple
    case Z => Red
  }

  /** Each kind has its own colour. */
  lemma ColorsDistinct(k: Kind, k': Kind)
    ensures ColorOf(k) == ColorOf(k') ==> k == k'
  {
  }

  /** Some cell of the shape is occupied. */
  ghost predicate HasFilled(s: Shape)
  {
    exists r, c :: 0 <= r < |s| && 0 <= c < |s[r]| && s[r][c]
  }

  /** Rectangular, between 1x1 and 4x4, with at least one occupied cell. */
  ghost predicate ShapeOk(s: Shape)
  {
    && 1 <= |s| <= 4
    && 1 <= |s[0]| <= 4
    && IsRect(s, |s|, |s[0]|)
    && HasFilled(s)
  }

  /** The shape is one of the four quarter-turn states of the kind's canonical matrix. */
  ghost predicate InOrbit(k: Kind, s: Shape)
  {
    exists n :: 0 <= n < 4 && s == RotateN(Canonical(k), n)
  }

  lemma CanonicalOk(k: Kind)
    ensures ShapeOk(Canonical(k))
    ensures InOrbit(k, Canonical(k))
  {
    var s := Canonical(k);
    assert s == RotateN(s, 0);
    match k
    case I => assert s[0][0];
    case J => assert s[0][0];
    case L => assert s[0][2];
    case O => assert s[0][0];
    case S => assert s[0][1];
    case T => assert s[0][1];
    case Z => assert s[0][0];
  }

  /** A quarter turn keeps a shape well-formed: dimensions swap, the occupied cell moves. */
  lemma RotateKeepsShapeOk(s: Shape)
    requires ShapeOk(s)
    ensures ShapeOk(Rotate(s))
  {
    var rows, cols := |s|, |s[0]|;
    RotateDims(s, rows, cols);
    var r, c :| 0 <= r < |s| && 0 <= c < |s[r]| && s[r][c];
    assert Rotate(s)[c][rows - 1 - r] == s[r][c];
  }

  lemma {:induction false} OrbitMemberOk(k: Kind, n: nat)
    ensures ShapeOk(RotateN(Canonical(k), n))
  {
    if n == 0 {
      CanonicalOk(k);
    } else {
      OrbitMemberOk(k, n - 1);
      RotateKeepsShapeOk(RotateN(Canonical(k), n - 1));
    }
  }

  /** Every shape in a kind's orbit is well-formed. */
  lemma InOrbitOk(k: Kind, s: Shape)
    requires InOrbit(k, s)
    ensures ShapeOk(s)
  {
    var n :| 0 <= n < 4 && s == RotateN(Canonical(k), n);
    OrbitMemberOk(k, n);
  }

  /** A quarter turn maps the orbit into itself: the fourth turn closes the cycle. */
  lemma RotateStaysInOrbit(k: Kind, s: Shape)
    requires InOrbit(k, s)
    ensures InOrbit(k, Rotate(s))
  {
    var n :| 0 <= n < 4 && s == RotateN(Canonical(k), n);
    assert Rotate(s) == RotateN(Canonical(k), n + 1);
    if n == 3 {
      CanonicalOk(k);
      var c := Canonical(k);
      RotateFour(c, |c|, |c[0]|);
      assert Rotate(s) == RotateN(c, 0);
    }
  }
}

=== FILE: tiles.dfy ===
/**
 The platformer's tile map and the row-major scan every tile rule shares:
 solid tiles, their 32-pixel blocks, and the clamping sweep of
 `Player.collide` (fase1.py lines 132-149), which the enemy's ground probe
 reuses (fase1.py lines 169-178).
 */
module Tiles {
  import opened Rects

  const TILE: int := 32

  /** One row per map line, one digit per tile. */
  type TileMap = seq<seq<int>>

  /** A tile visited by the scan: its row, column and value. */
  datatype Cell = Cell(row: int, col: int, v: int)

  /** Ground (1) and raised platform (4) tiles are solid; nothing else is. */
  predicate IsSolid(v: int)
  {
    v == 1 || v == 4
  }

  function Block(row: int, col: int): Rect
  {
    Rect(col * TILE, row * TILE, TILE, TILE)
  }

  ghost predicate InMap(t: TileMap, r: int, c: int)
  {
    0 <= r < |t| && 0 <= c < |t[r]|
  }

  ghost predicate IsCellOf(t: TileMap, cell: Cell)
  {
    InMap(t, cell.row, cell.col) && cell.v == t[cell.row][cell.col]
  }

  /** Strict row-major order. */
  predicate Before(a: Cell, b: Cell)
  {
    a.row < b.row || (a.row == b.row && a.col < b.col)
  }

  ghost predicate RowMajor(cs: seq<Cell>)
  {
    forall i, j :: 0 <= i < j < |cs| ==> Before(cs[i], cs[j])
  }

  function RowCells(t: TileMap, r: nat, c: nat): (cs: seq<Cell>)
    requires r < |t| && c <= |t[r]|
    ensures forall k :: 0 <= k < |cs| ==> IsCellOf(t, cs[k]) && cs[k].row == r && c <= cs[k].col
    ensures forall c' :: c <= c' < |t[r]| ==> Cell(r, c', t[r][c']) in cs
    ensures RowMajor(cs)
    decreases |t[r]| - c
  {
    if c == |t[r]| then []
    else [Cell(r, c, t[r][c])] + RowCells(t, r, c + 1)
  }

  function CellsFrom(t: TileMap, r: nat): (cs: seq<Cell>)
    requires r <= |t|
    ensures forall k :: 0 <= k < |cs| ==> IsCellOf(t, cs[k]) && r <= cs[k].row
    ensures forall r', c :: r <= r' && InMap(t, r', c) ==> Cell(r', c, t[r'][c]) in cs
    ensures RowMajor(cs)
    decreases |t| - r
  {
    if r == |t| then []
    else
      var row := RowCells(t, r, 0);
      var rest := CellsFrom(t, r + 1);
      assert forall i, j :: 0 <= i < |row| && 0 <= j < |rest| ==> Before(row[i], rest[j]);
      row + rest
  }

  /**
   The tiles in the order of the source's nested `enumerate` loops: every tile
   exactly once, row by row, left to right.
   */
  function Cells(t: TileMap): (cs: seq<Cell>)
    ensures forall k :: 0 <= k < |cs| ==> IsCellOf(t, cs[k])
    ensures forall r, c :: InMap(t, r, c) ==> Cell(r, c, t[r][c]) in cs
    ensures RowMajor(cs)
  {
    CellsFrom(t, 0)
  }

  /** Some solid tile's block overlaps the rect. */
  ghost predicate SolidOverlap(t: TileMap, rect: Rect)
  {
    exists r, c :: InMap(t, r, c) && IsSolid(t[r][c]) && Overlaps(rect, Block(r, c))
  }

  predicate SolidHit(cell: Cell, rect: Rect)
  {
    IsSolid(cell.v) && Overlaps(rect, Block(cell.row, cell.col))
  }

  /** The rect's right edge is the left edge of a solid tile. */
  ghost predicate RightOnSolid(t: TileMap, rect: Rect)
  {
    exists r, c :: InMap(t, r, c) && IsSolid(t[r][c]) && rect.Right() == c * TILE
  }

  /** The rect's left edge is the right edge of a solid tile. */
  ghost predicate LeftOnSolid(t: TileMap, rect: Rect)
  {
    exists r, c :: InMap(t, r, c) && IsSolid(t[r][c]) && rect.x == (c + 1) * TILE
  }

  /** The rect's bottom edge is the top edge of a solid tile. */
  ghost predicate BottomOnSolid(t: TileMap, rect: Rect)
  {
    exists r, c :: InMap(t, r, c) && IsSolid(t[r][c]) && rect.Bottom() == r * TILE
  }

  /** The rect's top edge is the bottom edge of a solid tile. */
  ghost predicate TopOnSolid(t: TileMap, rect: Rect)
  {
    exists r, c :: InMap(t, r, c) && IsSolid(t[r][c]) && rect.y == (r + 1) * TILE
  }

  /** Tile row `r` shares some of the rect's pixel rows. */
  predicate InRows(rect: Rect, r: int)
  {
    r * TILE < rect.Bottom() && rect.y < (r + 1) * TILE
  }

  /** Tile column `c` shares some of the rect's pixel columns. */
  predicate InCols(rect: Rect, c: int)
  {
    c * TILE < rect.Right() && rect.x < (c + 1) * TILE
  }

  /** The rect's right edge rests against the left face of a solid tile beside it. */
  ghost predicate RightAgainst(t: TileMap, rect: Rect)
  {
    exists r, c :: InMap(t, r, c) && IsSolid(t[r][c]) && rect.Right() == c * TILE && InRows(rect, r)
  }

  /** The rect's left edge rests against the right face of a solid tile beside it. */
  ghost predicate LeftAgainst(t: TileMap, rect: Rect)
  {
    exists r, c :: InMap(t, r, c) && IsSolid(t[r][c]) && rect.x == (c + 1) * TILE && InRows(rect, r)
  }

  /** The rect's bottom edge rests on the top face of a solid tile below it. */
  ghost predicate BottomAgainst(t: TileMap, rect: Rect)
  {
    exists r, c :: InMap(t, r, c) && IsSolid(t[r][c]) && rect.Bottom() == r * TILE && InCols(rect, c)
  }

  /** The rect's top edge rests against the bottom face of a solid tile above it. */
  ghost predicate TopAgainst(t: TileMap, rect: Rect)
  {
    exists r, c :: InMap(t, r, c) && IsSolid(t[r][c]) && rect.y == (r + 1) * TILE && InCols(rect, c)
  }

  /** State of a sweep: the rect so far and whether any solid block overlapped it. */
  datatype Swept = Swept(rect: Rect, hit: bool)

  /**
   Push the rect out of one overlapping block along the signs of (sx, sy):
   right edge to the block's left, left edge to its right, bottom to its top,
   top to its bottom.
   */
  function Clamp(rect: Rect, sx: int, sy: int, block: Rect): Rect
  {
    var r1 := if sx > 0 then rect.WithRight(block.x) else rect;
    var r2 := if sx < 0 then r1.(x := block.Right()) else r1;
    var r3 := if sy > 0 then r2.WithBottom(block.y) else r2;
    if sy < 0 then r3.(y := block.Bottom()) else r3
  }

  /**
   The scan of `collide` over `cs`: each solid block that overlaps the rect as
   it stands at that moment clamps it, so the last clamp on an axis wins.
   Only the first overlap meets the original rect, which is why `hit` is
   decided by the original rect alone.
   */
  function Sweep(rect: Rect, sx: int, sy: int, cs: seq<Cell>): (s: Swept)
    ensures s.rect.w == rect.w && s.rect.h == rect.h
    ensures s.hit <==> exists k :: 0 <= k < |cs| && SolidHit(cs[k], rect)
    ensures !s.hit ==> s.rect == rect
    decreases |cs|
  {
    if |cs| == 0 then Swept(rect, false)
    else
      var cell := cs[0];
      assert forall k :: 1 <= k < |cs| ==> cs[1..][k - 1] == cs[k];
      if SolidHit(cell, rect) then
        var rest := Sweep(Clamp(rect, sx, sy, Block(cell.row, cell.col)), sx, sy, cs[1..]);
        Swept(rest.rect, true)
      else
        Sweep(rect, sx, sy, cs[1..])
  }

  /**
   Horizontally the sweep only pushes against the sign of `sx`, and after a
   hit the rect's leading edge sits on the edge of a scanned solid block; in
   a purely horizontal sweep that block lies in the rect's rows.
   */
  lemma {:induction false} SweepX(rect: Rect, sx: int, sy: int, cs: seq<Cell>)
    ensures var s := Sweep(rect, sx, sy, cs);
      && (sx == 0 ==> s.rect.x == rect.x)
      && (sx > 0 ==> s.rect.x <= rect.x)
      && (sx < 0 ==> s.rect.x >= rect.x)
    ensures var s := Sweep(rect, sx, sy, cs); sx > 0 && s.hit ==> (s.rect.x < rect.x &&
      exists k :: 0 <= k < |cs| && IsSolid(cs[k].v) && s.rect.Right() == cs[k].col * TILE &&
        (sy == 0 ==> InRows(s.rect, cs[k].row)))
    ensures var s := Sweep(rect, sx, sy, cs); sx < 0 && s.hit ==> (s.rect.x > rect.x &&
      exists k :: 0 <= k < |cs| && IsSolid(cs[k].v) && s.rect.x == (cs[k].col + 1) * TILE &&
        (sy == 0 ==> InRows(s.rect, cs[k].row)))
    decreases |cs|
  {
    if |cs| > 0 {
      var cell := cs[0];
      assert forall k :: 1 <= k < |cs| ==> cs[1..][k - 1] == cs[k];
      if SolidHit(cell, rect) {
        var next := Clamp(rect, sx, sy, Block(cell.row, cell.col));
        SweepX(next, sx, sy, cs[1..]);
        var rest := Sweep(next, sx, sy, cs[1..]);
        if !rest.hit {
          assert rest.rect == next;
          if sx > 0 {
            assert IsSolid(cs[0].v) && rest.rect.Right() == cs[0].col * TILE;
          }
          if sx < 0 {
            assert IsSolid(cs[0].v) && rest.rect.x == (cs[0].col + 1) * TILE;
          }
        }
      } else {
        SweepX(rect, sx, sy, cs[1..]);
      }
    }
  }

  /**
   Vertically the sweep only pushes against the sign of `sy`, and after a
   hit the rect's leading edge sits on the edge of a scanned solid block; in
   a purely vertical sweep that block lies in the rect's columns.
   */
  lemma {:induction false} SweepY(rect: Rect, sx: int, sy: int, cs: seq<Cell>)
    ensures var s := Sweep(rect, sx, sy, cs);
      && (sy == 0 ==> s.rect.y == rect.y)
      && (sy > 0 ==> s.rect.y <= rect.y)
      && (sy < 0 ==> s.rect.y >= rect.y)
    ensures var s := Sweep(rect, sx, sy, cs); sy > 0 && s.hit ==> (s.rect.y < rect.y &&
      exists k :: 0 <= k < |cs| && IsSolid(cs[k].v) && s.rect.Bottom() == cs[k].row * TILE &&
        (sx == 0 ==> InCols(s.rect, cs[k].col)))
    ensures var s := Sweep(rect, sx, sy, cs); sy < 0 && s.hit ==> (s.rect.y > rect.y &&
      exists k :: 0 <= k < |cs| && IsSolid(cs[k].v) && s.rect.y == (cs[k].row + 1) * TILE &&
        (sx == 0 ==> InCols(s.rect, cs[k].col)))
    decreases |cs|
  {
    if |cs| > 0 {
      var cell := cs[0];
      assert forall k :: 1 <= k < |cs| ==> cs[1..][k - 1] == cs[k];
      if SolidHit(cell, rect) {
        var next := Clamp(rect, sx, sy, Block(cell.row, cell.col));
        SweepY(next, sx, sy, cs[1..]);
        var rest := Sweep(next, sx, sy, cs[1..]);
        if !rest.hit {
          assert rest.rect == next;
          if sy > 0 {
            assert IsSolid(cs[0].v) && rest.rect.Bottom() == cs[0].row * TILE;
          }
          if sy < 0 {
            assert IsSolid(cs[0].v) && rest.rect.y == (cs[0].row + 1) * TILE;
          }
        }
      } else {
        SweepY(rect, sx, sy, cs[1..]);
      }
    }
  }

  /** The sweep over the scan hits exactly when some solid tile of the map overlaps the rect. */
  lemma SweepHitOverMap(rect: Rect, sx: int, sy: int, t: TileMap)
    ensures Sweep(rect, sx, sy, Cells(t)).hit <==> SolidOverlap(t, rect)
  {
    var cs := Cells(t);
    if SolidOverlap(t, rect) {
      var r, c :| InMap(t, r, c) && IsSolid(t[r][c]) && Overlaps(rect, Block(r, c));
      var k :| 0 <= k < |cs| && cs[k] == Cell(r, c, t[r][c]);
      assert SolidHit(cs[k], rect);
    }
    if Sweep(rect, sx, sy, cs).hit {
      var k :| 0 <= k < |cs| && SolidHit(cs[k], rect);
      assert IsCellOf(t, cs[k]);
    }
  }

  /** A solid scanned cell is a solid tile of the map. */
  lemma ScannedSolid(t: TileMap, k: int)
    requires 0 <= k < |Cells(t)| && IsSolid(Cells(t)[k].v)
    ensures var cell := Cells(t)[k]; InMap(t, cell.row, cell.col) && IsSolid(t[cell.row][cell.col])
  {
  }

  /** The horizontal edge facts of the sweep, stated per tile of the map. */
  lemma SweepXOverMap(rect: Rect, sx: int, sy: int, t: TileMap)
    ensures var s := Sweep(rect, sx, sy, Cells(t)); sx > 0 && s.hit ==> (s.rect.x < rect.x &&
      RightOnSolid(t, s.rect) && (sy == 0 ==> RightAgainst(t, s.rect)))
    ensures var s := Sweep(rect, sx, sy, Cells(t)); sx < 0 && s.hit ==> (s.rect.x > rect.x &&
      LeftOnSolid(t, s.rect) && (sy == 0 ==> LeftAgainst(t, s.rect)))
  {
    var cs := Cells(t);
    var s := Sweep(rect, sx, sy, cs);
    SweepX(rect, sx, sy, cs);
    if sx > 0 && s.hit {
      var k :| 0 <= k < |cs| && IsSolid(cs[k].v) && s.rect.Right() == cs[k].col * TILE &&
        (sy == 0 ==> InRows(s.rect, cs[k].row));
      ScannedSolid(t, k);
    }
    if sx < 0 && s.hit {
      var k :| 0 <= k < |cs| && IsSolid(cs[k].v) && s.rect.x == (cs[k].col + 1) * TILE &&
        (sy == 0 ==> InRows(s.rect, cs[k].row));
      ScannedSolid(t, k);
    }
  }

  /** The vertical edge facts of the sweep, stated per tile of the map. */
  lemma SweepYOverMap(rect: Rect, sx: int, sy: int, t: TileMap)
    ensures var s := Sweep(rect, sx, sy, Cells(t)); sy > 0 && s.hit ==> (s.rect.y < rect.y &&
      BottomOnSolid(t, s.rect) && (sx == 0 ==> BottomAgainst(t, s.rect)))
    ensures var s := Sweep(rect, sx, sy, Cells(t)); sy < 0 && s.hit ==> (s.rect.y > rect.y &&
      TopOnSolid(t, s.rect) && (sx == 0 ==> TopAgainst(t, s.rect)))
  {
    var cs := Cells(t);
    var s := Sweep(rect, sx, sy, cs);
    SweepY(rect, sx, sy, cs);
    if sy > 0 && s.hit {
      var k :| 0 <= k < |cs| && IsSolid(cs[k].v) && s.rect.Bottom() == cs[k].row * TILE &&
        (sx == 0 ==> InCols(s.rect, cs[k].col));
      ScannedSolid(t, k);
    }
    if sy < 0 && s.hit {
      var k :| 0 <= k < |cs| && IsSolid(cs[k].v) && s.rect.y == (cs[k].row + 1) * TILE &&
        (sx == 0 ==> InCols(s.rect, cs[k].col));
      ScannedSolid(t, k);
    }
  }

  /** The sweep over the whole map in scan order, with its results stated per tile. */
  function SweepTiles(rect: Rect, sx: int, sy: int, t: TileMap): (s: Swept)
    ensures s.rect.w == rect.w && s.rect.h == rect.h
    ensures s.hit <==> SolidOverlap(t, rect)
    ensures !s.hit ==> s.rect == rect
    ensures sx == 0 ==> s.rect.x == rect.x
    ensures sy == 0 ==> s.rect.y == rect.y
    ensures sx > 0 && s.hit ==> (s.rect.x < rect.x &&
      RightOnSolid(t, s.rect) && (sy == 0 ==> RightAgainst(t, s.rect)))
    ensures sx < 0 && s.hit ==> (s.rect.x > rect.x &&
      LeftOnSolid(t, s.rect) && (sy == 0 ==> LeftAgainst(t, s.rect)))
    ensures sy > 0 && s.hit ==> (s.rect.y < rect.y &&
      BottomOnSolid(t, s.rect) && (sx == 0 ==> BottomAgainst(t, s.rect)))
    ensures sy < 0 && s.hit ==> (s.rect.y > rect.y &&
      TopOnSolid(t, s.rect) && (sx == 0 ==> TopAgainst(t, s.rect)))
  {
    SweepHitOverMap(rect, sx, sy, t);
    SweepX(rect, sx, sy, Cells(t));
    SweepY(rect, sx, sy, Cells(t));
    SweepXOverMap(rect, sx, sy, t);
    SweepYOverMap(rect, sx, sy, t);
    Sweep(rect, sx, sy, Cells(t))
  }
}

=== FILE: wrappers.dfy ===
/** Optional values: an empty board cell, a level without a flag. */
module Wrappers {

  datatype Option<+T> = None | Some(value: T)
}
